=== FILE: README.md ===
# NoctiForge CLI: push and trigger decision logic in Dafny

This project models the deterministic core of the NoctiForge command-line tool.

- `push` builds a project directory into an artifact, using either a custom shell script or a cargo build. It streams the archived output to the registry in chunks of at most 8192 bytes. It then asks the control plane to bind the returned digest to the project's name.
- `trigger` sends an action with a body and `key=value` metadata to the worker and prints the outcome it returns.

All of this is written as pure functions over immutable datatypes. Anything the tool gets from the operating system or the network is passed in as a value, never produced by the model. That covers the file system, processes, the archive pipe and the gRPC services.

Modules, one per file:

| module | models |
|---|---|
| `Results` | `Option` / `Result` wrappers |
| `Bytes` | bytes and chunk concatenation |
| `Text` | `trim`, `contains`, ASCII `to_lowercase`, `split_once`, integer `to_string` |
| `Utf8` | `String` → UTF-8 bytes and `String::from_utf8_lossy` |
| `Paths` | paths as component sequences; `join`, `parent`, `file_name` |
| `Process` | platform, file-system snapshot, commands, exit statuses |
| `Search` | `Iterator::find` |
| `Rust` | `src/command/push/rust.rs` |
| `Custom` | `src/command/push/custom.rs` |
| `Outbound` | the chunking generator in `src/command/push/mod.rs` |
| `Push` | the rest of `src/command/push/mod.rs` |
| `Trigger` | `src/command/trigger.rs` |

## How the environment enters the model

- File system: a `Process.Host` holds the directories and the regular files that exist. `exists`, `is_dir` and `is_file` are membership tests on it. One snapshot answers every check of a run.
- Processes: each spawn is recorded as a `Process.Command`. Its result comes in as a reply value:
  - `Rust.CargoReplies` for `cargo --version`, `cargo metadata`, `cargo build`, and creating the output directory and copying into it;
  - `Custom.ScriptReplies` for creating the output directory, running the script, and listing the output directory.
- The archive pipe: the sequence of results of `reader.read(&mut buf)` (`Outbound.ReadResult`). The archiving task's own result is a `Push.TarResult`.
- Services: the registry, the control plane and the worker are reply values (`Push.RegistryReply`, `Push.ControlPlaneReply`, `Trigger.ExecuteReply`), plus a flag saying whether the worker connection was made.

## Behaviour worth noting

- The working directory is not confined to the project. An override is joined onto the project path, and only its existence is checked. An absolute `working_directory` therefore replaces the project path (`Custom.WorkingDirPlacement`).
- `PROJECT_PATH` is set to the resolved working directory, not to the project path (`Custom.ScriptCommand`).
- A push failure is reported without awaiting the archiving task, so an archiving error is reported only after a successful push. It then takes precedence over the control-plane call (`Push.Run`).
- The toolchain check only requires that `cargo --version` can be spawned. Its exit status is not looked at (`Rust.Build`).

## Model

| member | source | states |
|---|---|---|
| `Text.TrimEmptyIffBlank` | src/command/push/custom.rs:52 | `script.trim().is_empty()` holds exactly when every character of the script is Unicode white space |
| `Text.ContainsIffOccurs` | src/command/push/custom.rs:60 | `contains` holds exactly when the pattern occurs at some position of the script |
| `Text.LowerMatchesIgnoringCase` | src/command/push/rust.rs:37-39 | comparing the lowercased text with a lowercase word is comparing character by character ignoring ASCII case |
| `Text.SplitOnce` | src/command/trigger.rs:27-28 | `split_once('=')` finds no split exactly when there is no '='; otherwise the key has no '=' and key, '=', value put back together give the entry |
| `Text.SplitOnceUnique` | src/command/trigger.rs:27-28 | any decomposition whose first part has no '=' is the one `split_once` returns |
| `Text.IntDecimalRoundTrip` | src/command/push/custom.rs:167-170 | the exit code's decimal text in an error message reads back as the code |
| `Process.CodeTextIdentifiesStatus` | src/command/push/custom.rs:166-176 | the code text of a failure reads back as the exit code, and it is "unknown" exactly when the process was ended by a signal |
| `Utf8.DecodeEncode` | src/command/trigger.rs:35 | lossy decoding of the UTF-8 bytes of a string gives the string back |
| `Paths.Join` | src/command/push/custom.rs:119 | joining a relative path appends its components; joining an absolute path gives that path |
| `Paths.ChildInverse` | src/command/push/rust.rs:343-347 | a joined file name has the base as parent and itself as file name |
| `Search.FindIndex` | src/command/push/rust.rs:212-215 | `find` gives the first position satisfying the predicate, or none when no element does |
| `Search.Find` | src/command/push/rust.rs:212-215 | `find` gives an element exactly when one satisfies the predicate, and then it is the first such element |
| `Rust.ParseProfile` | src/command/push/rust.rs:37-47 | the profile is Debug exactly when the string equals "debug" ignoring case; every other string gives Release |
| `Rust.ProfileNames` | src/command/push/rust.rs:31-47 | the default profile string "release" means Release; "DeBuG" means Debug; "dev" and "" fall back to Release |
| `Rust.WithTarget` | src/command/push/rust.rs:128-131 | the setter sets the target and leaves profile, package name and binary name unchanged |
| `Rust.WithProfile` | src/command/push/rust.rs:134-137 | the setter sets the profile and leaves the other three fields unchanged |
| `Rust.WithPackageName` | src/command/push/rust.rs:140-143 | the setter sets the package name and leaves the other three fields unchanged |
| `Rust.WithBinaryName` | src/command/push/rust.rs:146-149 | the setter sets the binary name and leaves the other three fields unchanged |
| `Rust.FromConfig` | src/command/push/rust.rs:35-65 | the converted build has the parsed profile; every `Some` field of the config overrides its slot; a missing target keeps the musl default triple |
| `Rust.ConfigDefaults` | src/command/push/rust.rs:110-118 | a config without a target builds for `x86_64-unknown-linux-musl`; an empty config converts to `RustBuild::default()` |
| `Rust.FindPackage` | src/command/push/rust.rs:205-234 | a configured name selects the first package with that exact name, else the call errors with no fallback; without a name, the first package whose manifest is `project/Cargo.toml`, else the first package, and an error only when there are no packages |
| `Rust.TieBreakExample` | src/command/push/rust.rs:211-233 | with packages [A, B] and A's manifest at the root: no name gives A; the name "B" gives B despite A's manifest match |
| `Rust.FindBinaryTarget` | src/command/push/rust.rs:237-264 | only targets whose kinds include "bin" are returned; a configured name gives the first such target of that name, or an error even when a non-"bin" target has the name; otherwise the first "bin" target, or an error listing all target names |
| `Rust.TargetNames` | src/command/push/rust.rs:261 | the error lists every target's name, in order |
| `Rust.CargoBuildArgs` | src/command/push/rust.rs:267-284 | the arguments start with "build", carry `--release` only for Release and `--target t` only when a target is set, and reading them back gives the build's profile and target |
| `Rust.BinaryPath` | src/command/push/rust.rs:311-327 | the binary is expected at `project/target/[triple/](release\|debug)/name`, component by component |
| `Rust.BinaryPathInjective` | src/command/push/rust.rs:311-327 | builds differing in triple, profile or binary name never expect their binary at the same path |
| `Rust.OutputPath` | src/command/push/rust.rs:342-347 | the copy goes into the output directory under the name `bootstrap`, whatever the binary is called |
| `Rust.LoadMetadata` | src/command/push/rust.rs:365-389 | metadata is available exactly when `cargo metadata` ran, succeeded and parsed; a command that could not be run names the project directory, a failed run reports its standard error, and unparsable output is its own error |
| `Rust.Build` | src/command/push/rust.rs:154-180 | a missing `Cargo.toml` fails before any process runs; an unspawnable `cargo` gives the toolchain error; otherwise the first failing step's own error is reported (metadata, package or binary selection, then `cargo build`, binary check and copy); `cargo build` runs only after metadata and selection succeed; on success the selected binary's path is copied to `bootstrap` |
| `Rust.Compile` | src/command/push/rust.rs:290-361 | after `cargo build`: a build that could not be run names the project directory, a failed exit reports the code text, a missing binary names its expected path, a failed `create_dir_all` names the temporary directory, and a failed copy names the binary and `bootstrap`; success needs all of these to pass |
| `Custom.WithDefaults` | src/command/push/custom.rs:22-46 | an absent timeout becomes 300 seconds; an absent shell becomes "cmd" on Windows and "sh" elsewhere; other fields are kept |
| `Custom.PatternWarnings` | src/command/push/custom.rs:57-67 | a warning for a pattern exactly when the script contains it, and any two warnings come from two distinct pattern positions in the same order, so each contained pattern warns once, in the patterns' order |
| `Custom.TimeoutWarnings` | src/command/push/custom.rs:74-81 | one warning, carrying the seconds and the whole minutes, exactly when the timeout exceeds 3600 seconds |
| `Custom.Validate` | src/command/push/custom.rs:50-84 | a blank script is the error, checked first; a zero timeout is the error otherwise; any other config passes; the warnings of a script that is not blank are the pattern warnings followed by the timeout warning, and a blank script logs none |
| `Custom.ValidateWarnings` | src/command/push/custom.rs:56-81 | validation warns about a dangerous pattern exactly when the script is not blank and contains it; its only other warning is the long-timeout one with this config's seconds and minutes, given exactly when the script is not blank and the timeout exceeds 3600 |
| `Custom.DefaultsValidate` | src/command/push/custom.rs:36-38 | a config with the default timeout and a script that is not blank passes validation without a timeout warning |
| `Custom.ShellArgs` | src/command/push/custom.rs:87-93 | a single flag, "/C" exactly on Windows and "-c" exactly elsewhere, chosen by the platform and not by the configured shell |
| `Custom.ScriptCommand` | src/command/push/custom.rs:131-145 | the program is the configured shell; its arguments are "/C" on Windows or "-c" elsewhere, then the script as one argument; the working directory is the resolved one; `OUTPUT` and `TEMP_PATH` name the output directory and `PROJECT_PATH` the working directory |
| `Custom.WorkingDir` | src/command/push/custom.rs:117-126 | without an override the project path is used; with one, `project.join(wd)` is used if it exists and otherwise it is the error |
| `Custom.WorkingDirPlacement` | src/command/push/custom.rs:118-126 | a relative override stays under the project path; an absolute one replaces it |
| `Custom.Finish` | src/command/push/custom.rs:148-197 | the run succeeds exactly when the script exits successfully and the output directory can be listed; a spawn failure names the shell, a timeout reports the configured seconds, a wait failure, a failed exit with its code text, an unreadable and an unlistable output directory are each their own error; an empty output directory only adds a warning |
| `Custom.Prepare` | src/command/push/custom.rs:98-145 | the command is prepared exactly when validation passes, the project exists, the output directory was created and the working directory resolved; the errors come in that order: the validation error, the missing project path, the temporary directory that could not be created, then the working-directory error |
| `Custom.Build` | src/command/push/custom.rs:98-198 | no process is spawned unless preparation succeeds; a failed preparation ends the build with its error, otherwise the build ends as the run does (exit code text, timeout seconds, wait or listing failure); its warnings are validation's followed by the empty-output warning when that applies |
| `Outbound.Outbound` | src/command/push/mod.rs:141-162 | every yielded chunk is non-empty and at most 8192 bytes |
| `Outbound.StopIndex` | src/command/push/mod.rs:143-160 | the loop stops at the first `Ok(0)` or error, and no read before it stops |
| `Outbound.OutboundIsDelivered` | src/command/push/mod.rs:143-160 | the yielded chunks are exactly the data of the reads before the first `Ok(0)` or error, in order |
| `Outbound.OutboundBytes` | src/command/push/mod.rs:149-155 | the concatenated chunks equal the concatenated bytes of those reads |
| `Outbound.ErrorEndsLikeEof` | src/command/push/mod.rs:145-160 | a read error ends the stream exactly like end-of-stream: no chunk for it, nothing after it |
| `Outbound.OutboundIsIncremental` | src/command/push/mod.rs:141-162 | the chunks of a prefix of the reads are a prefix of all the chunks, so each chunk is yielded as soon as it is read |
| `Outbound.BytesAreIncremental` | src/command/push/mod.rs:141-162 | the bytes pushed after any number of reads are a prefix of all the bytes pushed |
| `Outbound.StreamPreserved` | src/command/push/mod.rs:141-162 | a stream the pipe hands over in non-empty pieces of any sizes, then ends with `Ok(0)`, is yielded as exactly those pieces, so the bytes pushed are the stream in order, whatever later reads would return |
| `Push.SelectBackend` | src/command/push/mod.rs:91-100 | `type = "custom"` uses the script build as deserialised; `type = "rust"` uses `RustBuild::from` of its table; exactly one variant is chosen |
| `Push.RunBuild` | src/command/push/mod.rs:112-117 | the build succeeds exactly when the selected backend's build does, and its error is passed on |
| `Push.Run` | src/command/push/mod.rs:63-221 | a non-directory fails first, then a missing `Nocti.toml`, then an unreadable or malformed config, then a failed temporary directory; once the build has succeeded the run ends exactly as publishing does; it succeeds exactly when the build, the push, the archiving task and the control plane all succeed with `success == true` |
| `Push.Publish` | src/command/push/mod.rs:164-221 | publishing succeeds exactly when the registry returns a digest, the archiving task finished and the control plane accepts, and then binds `project.name` to that digest after sending the generator's chunks; connection failures name the service's URL; a failed push call, a panicked archiving task and a failed mapping call are each their own error; an archiving error surfaces only after a successful push; a refusal is reported only for an answer with `success == false`; a failed push hides any archiving error |
| `Push.BuildFailureStopsRun` | src/command/push/mod.rs:112-117 | a failed build ends the run with the build's error, whatever the registry or control plane would answer |
| `Trigger.Entry` | src/command/trigger.rs:27-28 | an entry's key has no '=', and key, '=', value put back together give the entry |
| `Trigger.EntryExamples` | src/command/trigger.rs:26-28 | "a=b=c" splits into "a" and "b=c", and "=v" into "" and "v" |
| `Trigger.ParseMetadata` | src/command/trigger.rs:24-31 | parsing succeeds exactly when every entry has a '='; otherwise the error names the first entry without one |
| `Trigger.MetadataLastWins` | src/command/trigger.rs:24-31 | the map's keys are exactly the entries' keys, and each maps to the value of the last entry with that key |
| `Trigger.MetadataExamples` | src/command/trigger.rs:24-31 | no entries give the empty map; of two entries with one key the later value is kept |
| `Trigger.MakeRequest` | src/command/trigger.rs:33-37 | the request exists exactly when the metadata parses; its action is the key, its body is exactly the UTF-8 encoding of the body text (which decodes back to that text), and its metadata is the parsed map |
| `Trigger.OutcomeLines` | src/command/trigger.rs:51-62 | a success prints the lossily decoded body as one line; a problem prints type, detail and instance in that order, then one "k v" line per extension |
| `Trigger.EchoedBodyPrinted` | src/command/trigger.rs:53-54 | a success whose body is the UTF-8 encoding of a text prints exactly that text |
| `Trigger.Run` | src/command/trigger.rs:8-64 | a failed connection is reported first, then invalid metadata, then a failed execute call; the command succeeds exactly when it connected, the metadata parsed and the worker replied; it then sent the request built from its arguments and printed the outcome's lines |

## Left out

- Process execution is not modelled. That covers spawning, waiting, stdio inheritance, `kill_on_drop`, and the race between the script and its timeout. These are operating-system effects and timing, so each process's result is an input value.
- Parsing is not modelled. The JSON of `cargo metadata` and the TOML of `Nocti.toml` are foreign library calls. Their results are taken as parsed datatypes, or as a parse failure.
- File-system effects are not modelled: existence checks, `create_dir_all`, `fs::copy`, `read_dir`, and creating and cleaning up the temporary directory. Their outcomes are inputs. One `Host` snapshot answers the checks made before and after a build.
- The tar archive format and the concurrency between the archiving task and the push are not modelled. Only the sequential generator over read results is, plus the task's final result.
- gRPC connections and calls are not modelled; they are network I/O. A reply carrying no outcome makes the source panic (`outcome.unwrap()`), and the model has no such reply.
- The registry and control-plane URL defaults are not modelled. They come from environment variables (src/command/push/mod.rs:45-52).
- Logging is not modelled. Tracing output, including the debug line for an unknown profile, is a side effect. Only the warnings of the custom build are returned, as values. `Push.Run` does not pass build warnings on.
- Rust.ParseProfile: `to_lowercase` is modelled on ASCII letters only. No other character lowercases to a letter of "debug", so the chosen profile is the same.
- Paths: a target triple, a binary name, `Cargo.toml` and `bootstrap` are each one relative component. A configured string containing a separator is not split. Rust's path normalisation (`.` components, repeated separators) is not modelled. `manifest_path` and the `working_directory` string are taken as already-parsed paths.
- Outbound.Outbound: a finite list of read results ends the stream when it runs out. The real generator would keep reading. Each successful read holds at most 8192 bytes, which is enforced by the type.
- Trigger.OutcomeLines: the problem's extension map is given as its entries in the order the map yields them. That order is unspecified in the source. The newline `println!` adds is not part of a line.
- `src/main.rs` and the generated protocol modules are not modelled; they are wiring with no logic.

=== FILE: bytes.dfy ===
/** Bytes and byte strings, and the concatenation of a sequence of chunks. */
module Bytes {

  type byte = b: int | 0 <= b < 0x100

  /** The bytes of `chunks` laid end to end, in order. */
  function Flatten(chunks: seq<seq<byte>>): seq<byte>
    decreases |chunks|
  {
    if |chunks| == 0 then [] else chunks[0] + Flatten(chunks[1..])
  }

  /** Concatenation distributes over appending chunk sequences. */
  lemma {:induction false} FlattenAppend(a: seq<seq<byte>>, b: seq<seq<byte>>)
    ensures Flatten(a + b) == Flatten(a) + Flatten(b)
    decreases |a|
  {
    if |a| == 0 {
      assert a + b == b;
    } else {
      assert (a + b)[1..] == a[1..] + b;
      FlattenAppend(a[1..], b);
    }
  }

  /** More chunks never take bytes back: a prefix of the chunks flattens to a
      prefix of the bytes. */
  lemma FlattenPrefix(a: seq<seq<byte>>, b: seq<seq<byte>>)
    requires a <= b
    ensures Flatten(a) <= Flatten(b)
  {
    assert b == a + b[|a|..];
    FlattenAppend(a, b[|a|..]);
  }
}

=== FILE: custom.dfy ===
/** The `type = "custom"` build: validation of the configured script, the shell
    command it becomes, and how the run's exit status and output are judged. */
module Custom {

  import opened Results
  import opened Text
  import opened Paths
  import opened Process

  type u64 = n: int | 0 <= n < 0x1_0000_0000_0000_0000

  /** Substrings that make validation warn; they never make it fail. */
  const DangerousPatterns: seq<string> := ["rm -rf /", "format", "del /f /s /q", "sudo"]

  /** Timeouts above this many seconds draw a warning. */
  const LongTimeoutSeconds := 3600

  datatype CustomBuild = CustomBuild(
    script: string,
    timeoutSeconds: u64,
    workingDirectory: Option<Path>,
    shell: string)

  /** A `type = "custom"` table as written, before serde fills in defaults. */
  datatype CustomBuildFields = CustomBuildFields(
    script: string,
    timeoutSeconds: Option<u64>,
    workingDirectory: Option<Path>,
    shell: Option<string>)

  /** `default_timeout`: five minutes. */
  function DefaultTimeout(): u64 {
    300
  }

  /** `default_shell`. */
  function DefaultShell(os: Platform): string {
    match os
    case Windows => "cmd"
    case Unix => "sh"
  }

  /** The `#[serde(default = …)]` attributes: a missing timeout or shell takes its default. */
  function WithDefaults(f: CustomBuildFields, os: Platform): (c: CustomBuild)
    ensures c.script == f.script && c.workingDirectory == f.workingDirectory
    ensures c.timeoutSeconds == if f.timeoutSeconds.Some? then f.timeoutSeconds.value else DefaultTimeout()
    ensures c.shell == if f.shell.Some? then f.shell.value else DefaultShell(os)
  {
    CustomBuild(
      f.script,
      if f.timeoutSeconds.Some? then f.timeoutSeconds.value else DefaultTimeout(),
      f.workingDirectory,
      if f.shell.Some? then f.shell.value else DefaultShell(os))
  }

  datatype Warning =
    | DangerousCommand(pattern: string)
    | LongTimeout(seconds: nat, minutes: nat)
    | EmptyOutput

  datatype ConfigError = EmptyScript | ZeroTimeout

  /** The warnings validation logged and the error it raised, if any. */
  datatype Checked = Checked(warnings: seq<Warning>, error: Option<ConfigError>)

  /** Every two warnings of `ws` come from two distinct positions of `patterns`
      at or after `from`, in the same order: no pattern warns twice, none out of turn. */
  predicate InPatternOrder(ws: seq<Warning>, patterns: seq<string>, from: nat) {
    forall i, j :: 0 <= i < j < |ws| ==>
      exists a, b :: from <= a < b < |patterns| && ws[i] == DangerousCommand(patterns[a])
                                                && ws[j] == DangerousCommand(patterns[b])
  }

  /** One warning per pattern the script contains, in the patterns' order. */
  function PatternWarnings(script: string, patterns: seq<string>): (ws: seq<Warning>)
    ensures |ws| <= |patterns|
    ensures forall i :: 0 <= i < |ws| ==> ws[i].DangerousCommand?
    ensures forall p :: DangerousCommand(p) in ws <==> p in patterns && Contains(script, p)
    ensures InPatternOrder(ws, patterns, 0)
    decreases |patterns|
  {
    if |patterns| == 0 then []
    else
      var rest := PatternWarnings(script, patterns[1..]);
      assert forall p :: p in patterns <==> p == patterns[0] || p in patterns[1..];
      OrderExtends(rest, patterns);
      if Contains(script, patterns[0]) then [DangerousCommand(patterns[0])] + rest else rest
  }

  /** Warnings in the order of `patterns[1..]` keep their order within `patterns`,
      also behind a warning for `patterns[0]`. */
  lemma OrderExtends(rest: seq<Warning>, patterns: seq<string>)
    requires |patterns| > 0 && InPatternOrder(rest, patterns[1..], 0)
    requires forall p :: DangerousCommand(p) in rest ==> p in patterns[1..]
    requires forall k :: 0 <= k < |rest| ==> rest[k].DangerousCommand?
    ensures InPatternOrder(rest, patterns, 0)
    ensures InPatternOrder([DangerousCommand(patterns[0])] + rest, patterns, 0)
  {
    var tail := patterns[1..];
    forall i, j | 0 <= i < j < |rest|
      ensures exists a, b :: 1 <= a < b < |patterns| && rest[i] == DangerousCommand(patterns[a])
                                                     && rest[j] == DangerousCommand(patterns[b])
    {
      var wi, wj := rest[i], rest[j];
      var a', b' :| 0 <= a' < b' < |tail| && rest[i] == DangerousCommand(tail[a'])
                                          && rest[j] == DangerousCommand(tail[b']);
      assert tail[a'] == patterns[a' + 1] && tail[b'] == patterns[b' + 1];
    }
    var ws := [DangerousCommand(patterns[0])] + rest;
    forall i, j | 0 <= i < j < |ws|
      ensures exists a, b :: 0 <= a < b < |patterns| && ws[i] == DangerousCommand(patterns[a])
                                                     && ws[j] == DangerousCommand(patterns[b])
    {
      var wi, wj := ws[i], ws[j];
      if i == 0 {
        assert ws[j] == rest[j - 1] && DangerousCommand(rest[j - 1].pattern) in rest;
        var b' :| 0 <= b' < |tail| && tail[b'] == rest[j - 1].pattern;
        assert ws[0] == DangerousCommand(patterns[0]) && ws[j] == DangerousCommand(patterns[b' + 1]);
      } else {
        assert ws[i] == rest[i - 1] && ws[j] == rest[j - 1];
      }
    }
  }

  /** The timeout warning: one, carrying seconds and whole minutes, exactly when
      the timeout is longer than an hour. */
  function TimeoutWarnings(seconds: u64): (ws: seq<Warning>)
    ensures ws == [] <==> seconds <= LongTimeoutSeconds
    ensures forall w :: w in ws ==> w == LongTimeout(seconds, seconds / 60)
  {
    if seconds > LongTimeoutSeconds then [LongTimeout(seconds, seconds / 60)] else []
  }

  /** `validate`: a blank script is an error (checked first), then a zero timeout;
      dangerous patterns and long timeouts only warn. */
  function Validate(c: CustomBuild): (r: Checked)
    ensures r.error == if IsBlank(c.script) then Some(EmptyScript)
                       else if c.timeoutSeconds == 0 then Some(ZeroTimeout)
                       else None
    ensures r.warnings == if IsBlank(c.script) then []
                          else PatternWarnings(c.script, DangerousPatterns) + TimeoutWarnings(c.timeoutSeconds)
  {
    TrimEmptyIffBlank(c.script);
    if Trim(c.script) == [] then Checked([], Some(EmptyScript))
    else
      var warned := PatternWarnings(c.script, DangerousPatterns);
      if c.timeoutSeconds == 0 then Checked(warned, Some(ZeroTimeout))
      else Checked(warned + TimeoutWarnings(c.timeoutSeconds), None)
  }

  /** What validation warns about: each dangerous pattern the script contains,
      and a timeout above an hour, with its length in seconds and whole minutes;
      a blank script is rejected before anything is logged. */
  lemma ValidateWarnings(c: CustomBuild)
    ensures var ws := Validate(c).warnings;
            forall p :: DangerousCommand(p) in ws <==> !IsBlank(c.script) && p in DangerousPatterns && Contains(c.script, p)
    ensures var ws := Validate(c).warnings;
            forall w :: w in ws ==> w.DangerousCommand? || w == LongTimeout(c.timeoutSeconds, c.timeoutSeconds / 60)
    ensures LongTimeout(c.timeoutSeconds, c.timeoutSeconds / 60) in Validate(c).warnings <==>
              !IsBlank(c.script) && c.timeoutSeconds > LongTimeoutSeconds
    ensures EmptyOutput !in Validate(c).warnings
  {
    var ws := Validate(c).warnings;
    var long := LongTimeout(c.timeoutSeconds, c.timeoutSeconds / 60);
    if !IsBlank(c.script) {
      var warned := PatternWarnings(c.script, DangerousPatterns);
      assert forall w :: w in warned ==> w.DangerousCommand?;
      if c.timeoutSeconds > LongTimeoutSeconds {
        assert ws == warned + [long];
      } else {
        assert ws == warned;
      }
    }
    WarningKinds(ws, long);
  }

  /** A warning list made of pattern warnings and one timeout warning holds no
      empty-output warning. */
  lemma WarningKinds(ws: seq<Warning>, long: Warning)
    requires long.LongTimeout?
    requires forall w :: w in ws ==> w.DangerousCommand? || w == long
    ensures EmptyOutput !in ws
  {
  }

  /** A configuration that leaves timeout and shell unset is valid whenever its
      script is not blank, and draws no timeout warning. */
  lemma DefaultsValidate(f: CustomBuildFields, os: Platform)
    requires f.timeoutSeconds.None? && !IsBlank(f.script)
    ensures Validate(WithDefaults(f, os)).error.None?
    ensures forall w :: w in Validate(WithDefaults(f, os)).warnings ==> w.DangerousCommand?
  {
    var c := WithDefaults(f, os);
    TrimEmptyIffBlank(c.script);
    assert Validate(c).warnings == PatternWarnings(c.script, DangerousPatterns);
  }

  /** `get_shell_args`: chosen by platform, not by the configured shell. */
  function ShellArgs(os: Platform): (args: seq<string>)
    ensures |args| == 1
    ensures args[0] == "/C" <==> os.Windows?
    ensures args[0] == "-c" <==> os.Unix?
  {
    match os
    case Windows => ["/C"]
    case Unix => ["-c"]
  }

  /** The shell process: `shell /C|-c script` in the working directory, with
      `OUTPUT` and `TEMP_PATH` naming the output directory and `PROJECT_PATH`
      naming the working directory. */
  function ScriptCommand(c: CustomBuild, os: Platform, workingDir: Path, temp: Path): (cmd: Command)
    ensures cmd.program == c.shell && cmd.cwd == Some(workingDir)
    ensures |cmd.args| == 2 && cmd.args[..1] == ShellArgs(os) && cmd.args[1] == c.script
    ensures cmd.args[0] == if os.Windows? then "/C" else "-c"
    ensures cmd.env.Keys == {"OUTPUT", "TEMP_PATH", "PROJECT_PATH"}
    ensures cmd.env["OUTPUT"] == cmd.env["TEMP_PATH"] == temp
    ensures cmd.env["PROJECT_PATH"] == workingDir
  {
    var env := map["OUTPUT" := temp, "PROJECT_PATH" := workingDir, "TEMP_PATH" := temp];
    Command(c.shell, ShellArgs(os) + [c.script], Some(workingDir), env)
  }

  datatype Error =
    | Invalid(reason: ConfigError)
    | ProjectMissing(project: Path)
    | TempDirFailed(temp: Path)
    | WorkingDirMissing(dir: Path)
    | SpawnFailed(shell: string)
    | TimedOut(seconds: nat)
    | WaitFailed
    | ScriptFailed(code: string)
    | OutputUnreadable
    | OutputUnlistable

  /** The working directory: the override joined onto the project path, which must
      exist, or the project path itself. */
  function WorkingDir(c: CustomBuild, project: Path, host: Host): (r: Result<Path, Error>)
    ensures c.workingDirectory.None? ==> r == Ok(project)
    ensures c.workingDirectory.Some? ==>
              var dir := Join(project, c.workingDirectory.value);
              && (r.Ok? <==> Exists(host, dir))
              && (r.Ok? ==> r.value == dir)
              && (r.Err? ==> r.error == WorkingDirMissing(dir))
  {
    match c.workingDirectory
    case None => Ok(project)
    case Some(wd) =>
      var dir := Join(project, wd);
      if Exists(host, dir) then Ok(dir) else Err(WorkingDirMissing(dir))
  }

  /** A relative override stays below the project path; an absolute one replaces it. */
  lemma WorkingDirPlacement(c: CustomBuild, project: Path, host: Host)
    requires c.workingDirectory.Some? && WorkingDir(c, project, host).Ok?
    ensures var dir := WorkingDir(c, project, host).value;
            && (!c.workingDirectory.value.absolute ==> dir.parts[..|project.parts|] == project.parts)
            && (c.workingDirectory.value.absolute ==> dir == c.workingDirectory.value)
  {
  }

  /** How waiting for the script ended: it could not be spawned, the timeout
      elapsed, waiting failed, or it exited with a status. */
  datatype ScriptReply = NotSpawned | Expired | WaitError | Finished(status: ExitStatus)

  /** Reading the output directory after the run: opening it failed, reading its
      first entry failed, or it was read and has or has no entry. */
  datatype Listing = ReadDirFailed | NextEntryFailed | Listed(hasEntry: bool)

  /** What the build asks of the file system and the script process. */
  datatype ScriptReplies = ScriptReplies(tempCreated: bool, run: ScriptReply, output: Listing)

  /** The post-run outcome: a failed exit is an error naming the code (or
      "unknown"); an empty output directory is only a warning. */
  function Finish(c: CustomBuild, run: ScriptReply, output: Listing): (r: (seq<Warning>, Result<(), Error>))
    ensures r.1.Ok? <==> run.Finished? && Succeeded(run.status) && output.Listed?
    ensures run.Finished? && !Succeeded(run.status) ==> r.1 == Err(ScriptFailed(CodeText(run.status)))
    ensures run == Expired ==> r.1 == Err(TimedOut(c.timeoutSeconds))
    ensures run.NotSpawned? ==> r.1 == Err(SpawnFailed(c.shell))
    ensures run.WaitError? ==> r.1 == Err(WaitFailed)
    ensures run.Finished? && Succeeded(run.status) && output.ReadDirFailed? ==> r.1 == Err(OutputUnreadable)
    ensures run.Finished? && Succeeded(run.status) && output.NextEntryFailed? ==> r.1 == Err(OutputUnlistable)
    ensures r.0 == (if r.1.Ok? && !output.hasEntry then [EmptyOutput] else [])
  {
    match run
    case NotSpawned => ([], Err(SpawnFailed(c.shell)))
    case Expired => ([], Err(TimedOut(c.timeoutSeconds)))
    case WaitError => ([], Err(WaitFailed))
    case Finished(status) =>
      if !Succeeded(status) then ([], Err(ScriptFailed(CodeText(status))))
      else match output
        case ReadDirFailed => ([], Err(OutputUnreadable))
        case NextEntryFailed => ([], Err(OutputUnlistable))
        case Listed(hasEntry) => (if hasEntry then [] else [EmptyOutput], Ok(()))
  }

  /** The steps before the script runs: validate, check the project path, create
      the output directory, resolve the working directory; then the command to spawn. */
  function Prepare(c: CustomBuild, os: Platform, project: Path, temp: Path, host: Host, tempCreated: bool)
    : (r: Result<Command, Error>)
    ensures Validate(c).error.Some? ==> r == Err(Invalid(Validate(c).error.value))
    ensures Validate(c).error.None? && !Exists(host, project) ==> r == Err(ProjectMissing(project))
    ensures Validate(c).error.None? && Exists(host, project) && !tempCreated ==> r == Err(TempDirFailed(temp))
    ensures Validate(c).error.None? && Exists(host, project) && tempCreated && WorkingDir(c, project, host).Err? ==>
              r == Err(WorkingDir(c, project, host).error)
    ensures r.Ok? <==> && Validate(c).error.None? && Exists(host, project) && tempCreated
                       && WorkingDir(c, project, host).Ok?
    ensures r.Ok? ==> r.value == ScriptCommand(c, os, WorkingDir(c, project, host).value, temp)
  {
    var checked := Validate(c);
    if checked.error.Some? then Err(Invalid(checked.error.value))
    else if !Exists(host, project) then Err(ProjectMissing(project))
    else if !tempCreated then Err(TempDirFailed(temp))
    else
      var wd :- WorkingDir(c, project, host);
      Ok(ScriptCommand(c, os, wd, temp))
  }

  /** The commands the build spawned, the warnings it logged, and how it ended. */
  datatype Report = Report(commands: seq<Command>, warnings: seq<Warning>, result: Result<(), Error>)

  /** `CustomBuild::build`: no process is spawned unless every check before the run
      passes; the build succeeds exactly when those checks pass and the run
      succeeds; its warnings are validation's, then possibly the empty-output one. */
  function Build(c: CustomBuild, os: Platform, project: Path, temp: Path, host: Host, replies: ScriptReplies)
    : (r: Report)
    ensures Validate(c).error.Some? ==>
              r == Report([], Validate(c).warnings, Err(Invalid(Validate(c).error.value)))
    ensures r.commands == match Prepare(c, os, project, temp, host, replies.tempCreated)
                          case Ok(cmd) => [cmd]
                          case Err(_) => []
    ensures r.result.Ok? <==> && Prepare(c, os, project, temp, host, replies.tempCreated).Ok?
                              && Finish(c, replies.run, replies.output).1.Ok?
    ensures r.warnings == Validate(c).warnings + if r.result.Ok? && !replies.output.hasEntry then [EmptyOutput] else []
    ensures Prepare(c, os, project, temp, host, replies.tempCreated).Err? ==>
              r.result == Err(Prepare(c, os, project, temp, host, replies.tempCreated).error)
    ensures Prepare(c, os, project, temp, host, replies.tempCreated).Ok? ==>
              r.result == Finish(c, replies.run, replies.output).1
  {
    var checked := Validate(c);
    match Prepare(c, os, project, temp, host, replies.tempCreated)
    case Err(e) => Report([], checked.warnings, Err(e))
    case Ok(cmd) =>
      var (late, result) := Finish(c, replies.run, replies.output);
      Report([cmd], checked.warnings + late, result)
  }
}

=== FILE: outbound.dfy ===
/** The generator that turns the archive pipe into push requests: it reads into
    an 8192-byte buffer and yields every non-empty read as one chunk, stopping
    at the first zero-length read or read error. */
module Outbound {

  import opened Bytes

  /** The read buffer's size; the pipe between archiver and reader has the same capacity. */
  const BufferSize := 8192

  /** What fits in the read buffer. */
  type Filled = s: seq<byte> | |s| <= BufferSize

  /** One `read(&mut buf)`: the bytes it placed in the buffer (none means end of
      stream), or an I/O error. */
  datatype ReadResult = ReadOk(data: Filled) | ReadErr

  /** Reads that end the loop: `Ok(0)` and `Err(_)`. */
  predicate Stops(r: ReadResult) {
    r.ReadErr? || |r.data| == 0
  }

  /** The chunks yielded for a sequence of read results; running out of them ends the stream. */
  function Outbound(results: seq<ReadResult>): (chunks: seq<seq<byte>>)
    ensures |chunks| <= |results|
    ensures forall i :: 0 <= i < |chunks| ==> 0 < |chunks[i]| <= BufferSize
    decreases |results|
  {
    if |results| == 0 || Stops(results[0]) then []
    else [results[0].data] + Outbound(results[1..])
  }

  /** Position of the first read that ends the loop, or the number of reads if none does. */
  function StopIndex(results: seq<ReadResult>): (k: nat)
    ensures k <= |results|
    ensures forall i :: 0 <= i < k ==> !Stops(results[i])
    ensures k < |results| ==> Stops(results[k])
    decreases |results|
  {
    if |results| == 0 || Stops(results[0]) then 0 else 1 + StopIndex(results[1..])
  }

  /** Reference definition: the data of every read before the first stopping one. */
  function Delivered(results: seq<ReadResult>): (chunks: seq<seq<byte>>)
    ensures |chunks| == StopIndex(results)
  {
    var k := StopIndex(results);
    seq(k, i requires 0 <= i < k => results[i].data)
  }

  /** The generator yields exactly the reads before the first `Ok(0)` or error, in order. */
  lemma {:induction false} OutboundIsDelivered(results: seq<ReadResult>)
    ensures Outbound(results) == Delivered(results)
    decreases |results|
  {
    if |results| > 0 && !Stops(results[0]) {
      OutboundIsDelivered(results[1..]);
      assert Delivered(results) == [results[0].data] + Delivered(results[1..]);
    }
  }

  /** The bytes sent are the bytes of the successful reads before the stop, in order. */
  lemma OutboundBytes(results: seq<ReadResult>)
    ensures Flatten(Outbound(results)) == Flatten(Delivered(results))
  {
    OutboundIsDelivered(results);
  }

  /** A read error ends the stream exactly as end-of-stream does: no chunk for it,
      nothing after it, and no error surfaced by the generator. */
  lemma {:induction false} ErrorEndsLikeEof(before: seq<ReadResult>, afterErr: seq<ReadResult>, afterEof: seq<ReadResult>)
    ensures Outbound(before + [ReadErr] + afterErr) == Outbound(before + [ReadOk([])] + afterEof)
    ensures Outbound(before + [ReadErr] + afterErr) == Outbound(before)
    decreases |before|
  {
    if |before| == 0 {
      assert (before + [ReadErr] + afterErr)[0] == ReadErr;
      assert (before + [ReadOk([])] + afterEof)[0] == ReadOk([]);
    } else {
      ErrorEndsLikeEof(before[1..], afterErr, afterEof);
      assert (before + [ReadErr] + afterErr)[1..] == before[1..] + [ReadErr] + afterErr;
      assert (before + [ReadOk([])] + afterEof)[1..] == before[1..] + [ReadOk([])] + afterEof;
    }
  }

  /** Chunks are yielded as their reads complete: the chunks for a prefix of the
      reads are a prefix of the chunks for all of them. */
  lemma {:induction false} OutboundIsIncremental(results: seq<ReadResult>, k: nat)
    requires k <= |results|
    ensures Outbound(results[..k]) <= Outbound(results)
    decreases k
  {
    if k > 0 && !Stops(results[0]) {
      assert results[..k][1..] == results[1..][..k - 1];
      OutboundIsIncremental(results[1..], k - 1);
    }
  }

  /** The bytes pushed after the first `k` reads are a prefix of all the bytes
      pushed: nothing sent is later taken back or reordered. */
  lemma BytesAreIncremental(results: seq<ReadResult>, k: nat)
    requires k <= |results|
    ensures Flatten(Outbound(results[..k])) <= Flatten(Outbound(results))
  {
    OutboundIsIncremental(results, k);
    FlattenPrefix(Outbound(results[..k]), Outbound(results));
  }

  /** The reads that hand over `pieces` one per read. */
  function Reads(pieces: seq<Filled>): (results: seq<ReadResult>)
    ensures |results| == |pieces|
    ensures forall i :: 0 <= i < |pieces| ==> results[i] == ReadOk(pieces[i])
  {
    seq(|pieces|, i requires 0 <= i < |pieces| => ReadOk(pieces[i]))
  }

  /** A stream the pipe hands over in non-empty pieces of any sizes, then ends:
      the generator yields exactly those pieces, so the pushed bytes are the
      stream in order, whatever the reads after the end would have returned. */
  lemma {:induction false} StreamPreserved(pieces: seq<Filled>, later: seq<ReadResult>)
    requires forall i :: 0 <= i < |pieces| ==> |pieces[i]| > 0
    ensures Outbound(Reads(pieces) + [ReadOk([])] + later) == pieces
    ensures Flatten(Outbound(Reads(pieces) + [ReadOk([])] + later)) == Flatten(pieces)
    decreases |pieces|
  {
    var results := Reads(pieces) + [ReadOk([])] + later;
    if |pieces| == 0 {
      assert results[0] == ReadOk([]);
    } else {
      assert results[0] == ReadOk(pieces[0]);
      assert results[1..] == Reads(pieces[1..]) + [ReadOk([])] + later;
      StreamPreserved(pieces[1..], later);
      assert pieces == [pieces[0]] + pieces[1..];
    }
  }
}

=== FILE: paths.dfy ===
/** File-system paths as sequences of components, with the joining rule of
    Rust's `Path::join`: joining an absolute path replaces the base. */
module Paths {

  import opened Results

  datatype Path = Path(absolute: bool, parts: seq<string>)

  /** `base.join(rel)`. */
  function Join(base: Path, rel: Path): (r: Path)
    ensures !rel.absolute ==> && r.absolute == base.absolute
                              && |r.parts| == |base.parts| + |rel.parts|
                              && r.parts[..|base.parts|] == base.parts
                              && r.parts[|base.parts|..] == rel.parts
    ensures rel.absolute ==> r == rel
  {
    if rel.absolute then rel else Path(base.absolute, base.parts + rel.parts)
  }

  /** `base.join(name)` for a name that is a single relative component. */
  function Child(base: Path, name: string): Path {
    Join(base, Path(false, [name]))
  }

  /** `Path::parent`: the path without its last component, if it has one. */
  function Parent(p: Path): Option<Path> {
    if |p.parts| == 0 then None else Some(Path(p.absolute, p.parts[..|p.parts| - 1]))
  }

  /** The file name of `p`, its last component, if it has one. */
  function FileName(p: Path): Option<string> {
    if |p.parts| == 0 then None else Some(p.parts[|p.parts| - 1])
  }

  /** A child path always has its base as parent and the child name as file name. */
  lemma ChildInverse(base: Path, name: string)
    ensures Parent(Child(base, name)) == Some(base)
    ensures FileName(Child(base, name)) == Some(name)
  {
    assert (base.parts + [name])[..|base.parts|] == base.parts;
  }
}

=== FILE: process.dfy ===
/** What the commands see of the operating system, as plain values: the
    platform, the paths that exist, the commands they spawn and the exit
    status a finished process reports. */
module Process {

  import opened Results
  import opened Paths
  import opened Text

  /** The platform the program was compiled for (`cfg!(target_os = "windows")`). */
  datatype Platform = Windows | Unix

  /** A snapshot of the file system: the directories and the regular files that exist. */
  datatype Host = Host(dirs: set<Path>, files: set<Path>)

  /** `Path::exists`. */
  predicate Exists(host: Host, p: Path) {
    p in host.dirs || p in host.files
  }

  /** A process as configured before spawning: program, arguments, working directory
      (None inherits the caller's) and environment variables added to the inherited ones. */
  datatype Command = Command(program: string, args: seq<string>, cwd: Option<Path>, env: map<string, Path>)

  /** `ExitStatus`: a normal exit with a code, or termination by a signal (no code). */
  datatype ExitStatus = Exited(code: int) | Signalled

  /** `ExitStatus::success`. */
  predicate Succeeded(status: ExitStatus) {
    status.Exited? && status.code == 0
  }

  /** How an error message names an exit status: the exit code in decimal, or
      "unknown" when a signal ended the process. */
  function CodeText(status: ExitStatus): string {
    match status
    case Exited(code) => IntToDecimal(code)
    case Signalled => "unknown"
  }

  /** The code text of an error message identifies the exit status: it reads back as
      the exit code, and "unknown" stands for a signal and nothing else. */
  lemma CodeTextIdentifiesStatus(status: ExitStatus)
    ensures status.Exited? ==> ParseInt(CodeText(status)) == Some(status.code)
    ensures CodeText(status) == "unknown" <==> status.Signalled?
  {
    if status.Exited? {
      IntDecimalRoundTrip(status.code);
      assert ParseInt("unknown") == None by { assert !IsDigit("unknown"[0]); }
    }
  }
}

=== FILE: push.dfy ===
/** The `push` command: check the project directory and its `Nocti.toml`,
    select the build backend, build into a temporary directory, stream the
    archived output to the registry, and bind the returned digest to the
    project's name on the control plane. */
module Push {

  import opened Results
  import opened Paths
  import opened Process
  import opened Bytes
  import Custom
  import Rust
  import Outbound

  const ConfigFile := "Nocti.toml"

  datatype Project = Project(name: string)

  /** The `[build]` table, tagged by its `type` field. */
  datatype Build = CustomBuild(custom: Custom.CustomBuild) | RustBuild(rust: Rust.RustBuildConfig)

  datatype Config = Config(project: Project, build: Build, registryUrl: string, controlPlaneUrl: string)

  /** The build service a configuration selects. */
  datatype Backend = Script(script: Custom.CustomBuild) | Compiled(compiled: Rust.RustBuild)

  /** The dispatch in `run`: a custom table is used as deserialised, a Rust table is
      normalised through `RustBuild::from`. */
  function SelectBackend(b: Build): (backend: Backend)
    ensures backend.Script? <==> b.CustomBuild?
    ensures backend.Script? ==> backend.script == b.custom
    ensures backend.Compiled? ==> backend.compiled == Rust.FromConfig(b.rust)
  {
    match b
    case CustomBuild(c) => Script(c)
    case RustBuild(config) => Compiled(Rust.FromConfig(config))
  }

  /** How loading `Nocti.toml` went: reading failed, TOML parsing failed, or the config. */
  datatype ConfigLoad = ReadFailed | ParseFailed | Loaded(config: Config)

  /** How the archiving task ended: finished, returned an error, or panicked. */
  datatype TarResult = TarDone | TarError(message: string) | TarPanicked

  /** The registry: unreachable, the push call failed, or it returned a digest. */
  datatype RegistryReply = RegistryDown | PushError | Pushed(digest: string)

  /** The control plane: unreachable, the call failed, or it answered. */
  datatype ControlPlaneReply = ControlPlaneDown | CallError | Answered(success: bool)

  /** What a build depends on: the platform, the file system, and the outcomes of
      the processes and file operations of either backend. */
  datatype Machine = Machine(
    os: Platform,
    host: Host,
    script: Custom.ScriptReplies,
    cargo: Rust.CargoReplies)

  /** Everything outside the command that a run depends on. */
  datatype Environment = Environment(
    machine: Machine,
    config: ConfigLoad,
    tempDir: Option<Path>,
    archive: seq<Outbound.ReadResult>,
    tar: TarResult,
    registry: RegistryReply,
    controlPlane: ControlPlaneReply)

  datatype SetDigestToNameRequest = SetDigestToNameRequest(key: string, digest: string)

  /** A successful push: the chunks streamed to the registry and the accepted binding. */
  datatype Published = Published(chunks: seq<seq<byte>>, request: SetDigestToNameRequest)

  datatype BuildError = ScriptError(script: Custom.Error) | CompileError(compile: Rust.Error)

  datatype Error =
    | NotADirectory
    | ConfigMissing
    | ConfigUnreadable(path: Path)
    | ConfigInvalid
    | TempDirFailed
    | BuildFailed(cause: BuildError)
    | RegistryUnreachable(url: string)
    | PushFailed
    | ArchiveTaskPanicked
    | ArchiveFailed(message: string)
    | ControlPlaneUnreachable(url: string)
    | MappingFailed
    | Rejected(key: string)

  /** `buildservice.build(project, temp)` for the selected backend. */
  function RunBuild(backend: Backend, project: Path, temp: Path, m: Machine): (r: Result<(), BuildError>)
    ensures backend.Script? ==>
              var report := Custom.Build(backend.script, m.os, project, temp, m.host, m.script);
              && (r.Ok? <==> report.result.Ok?)
              && (r.Err? ==> r.error == ScriptError(report.result.error))
    ensures backend.Compiled? ==>
              var report := Rust.Build(backend.compiled, project, temp, m.host, m.cargo);
              && (r.Ok? <==> report.result.Ok?)
              && (r.Err? ==> r.error == CompileError(report.result.error))
  {
    match backend
    case Script(c) =>
      Custom.Build(c, m.os, project, temp, m.host, m.script).result.MapError(e => ScriptError(e))
    case Compiled(b) =>
      match Rust.Build(b, project, temp, m.host, m.cargo).result
      case Ok(_) => Ok(())
      case Err(e) => Err(CompileError(e))
  }

  /** The run got through the build: the project is a directory with a config file,
      the config loaded, a temporary directory was made and the build succeeded. */
  predicate Built(path: Path, env: Environment) {
    && path in env.machine.host.dirs
    && Child(path, ConfigFile) in env.machine.host.files
    && env.config.Loaded?
    && env.tempDir.Some?
    && RunBuild(SelectBackend(env.config.config.build), path, env.tempDir.value, env.machine).Ok?
  }

  /** `push::run`. */
  function Run(path: Path, env: Environment): (r: Result<Published, Error>)
    ensures path !in env.machine.host.dirs ==> r == Err(NotADirectory)
    ensures path in env.machine.host.dirs && Child(path, ConfigFile) !in env.machine.host.files ==> r == Err(ConfigMissing)
    ensures r.Ok? <==> Built(path, env) && env.registry.Pushed? && env.tar.TarDone?
                       && env.controlPlane == Answered(true)
    ensures Built(path, env) ==> r == Publish(env.config.config, env)
    ensures path in env.machine.host.dirs && Child(path, ConfigFile) in env.machine.host.files ==>
              && (env.config.ReadFailed? ==> r == Err(ConfigUnreadable(Child(path, ConfigFile))))
              && (env.config.ParseFailed? ==> r == Err(ConfigInvalid))
              && (env.config.Loaded? && env.tempDir.None? ==> r == Err(TempDirFailed))
  {
    if path !in env.machine.host.dirs then Err(NotADirectory)
    else
      var configPath := Child(path, ConfigFile);
      if configPath !in env.machine.host.files then Err(ConfigMissing)
      else match env.config
        case ReadFailed => Err(ConfigUnreadable(configPath))
        case ParseFailed => Err(ConfigInvalid)
        case Loaded(config) =>
          var backend := SelectBackend(config.build);
          match env.tempDir
          case None => Err(TempDirFailed)
          case Some(temp) =>
            match RunBuild(backend, path, temp, env.machine)
            case Err(e) => Err(BuildFailed(e))
            case Ok(_) => Publish(config, env)
  }

  /** After the build: push the archive stream, await the archiving task, then ask
      the control plane to bind the digest to the project name. */
  function Publish(config: Config, env: Environment): (r: Result<Published, Error>)
    ensures r.Ok? <==> env.registry.Pushed? && env.tar.TarDone? && env.controlPlane == Answered(true)
    ensures env.registry.RegistryDown? ==> r == Err(RegistryUnreachable(config.registryUrl))
    ensures env.controlPlane.ControlPlaneDown? && env.registry.Pushed? && env.tar.TarDone? ==>
              r == Err(ControlPlaneUnreachable(config.controlPlaneUrl))
    ensures r.Ok? ==> r.value == Published(Outbound.Outbound(env.archive),
                                           SetDigestToNameRequest(config.project.name, env.registry.digest))
    ensures env.registry.Pushed? && env.tar.TarError? ==> r == Err(ArchiveFailed(env.tar.message))
    ensures env.registry.Pushed? && env.tar.TarDone? && env.controlPlane == Answered(false) ==>
              r == Err(Rejected(config.project.name))
    ensures !env.registry.Pushed? ==> r.Err? && !r.error.ArchiveFailed?
    ensures env.registry.PushError? ==> r == Err(PushFailed)
    ensures env.registry.Pushed? && env.tar.TarPanicked? ==> r == Err(ArchiveTaskPanicked)
    ensures env.registry.Pushed? && env.tar.TarDone? && env.controlPlane.CallError? ==> r == Err(MappingFailed)
    ensures r.Err? && r.error.Rejected? ==>
              env.registry.Pushed? && env.tar.TarDone? && env.controlPlane == Answered(false)
  {
    var chunks := Outbound.Outbound(env.archive);
    match env.registry
    case RegistryDown => Err(RegistryUnreachable(config.registryUrl))
    case PushError => Err(PushFailed)
    case Pushed(digest) =>
      match env.tar
      case TarPanicked => Err(ArchiveTaskPanicked)
      case TarError(message) => Err(ArchiveFailed(message))
      case TarDone =>
        var request := SetDigestToNameRequest(config.project.name, digest);
        match env.controlPlane
        case ControlPlaneDown => Err(ControlPlaneUnreachable(config.controlPlaneUrl))
        case CallError => Err(MappingFailed)
        case Answered(success) =>
          if success then Ok(Published(chunks, request)) else Err(Rejected(config.project.name))
  }

  /** No build, no network call: a failing build ends the run with the build's
      error, whatever the registry or control plane would have answered. */
  lemma BuildFailureStopsRun(path: Path, env: Environment, other: Environment)
    requires path in env.machine.host.dirs && Child(path, ConfigFile) in env.machine.host.files
    requires env.config.Loaded? && env.tempDir.Some?
    requires other == env.(archive := other.archive, tar := other.tar, registry := other.registry,
                           controlPlane := other.controlPlane)
    ensures var built := RunBuild(SelectBackend(env.config.config.build), path, env.tempDir.value, env.machine);
            built.Err? ==> Run(path, env) == Run(path, other) && Run(path, env) == Err(BuildFailed(built.error))
  {
  }
}

=== FILE: results.dfy ===
/** Success/failure wrappers used by every operation of the model, in the
    style of Rust's `Option` and `Result`; both work with Dafny's `:-`. */
module Results {

  datatype Option<+T> = None | Some(value: T)

  datatype Result<+T, +E> = Ok(value: T) | Err(error: E) {

    predicate IsFailure() {
      Err?
    }

    function PropagateFailure<U>(): Result<U, E>
      requires Err?
    {
      Err(error)
    }

    function Extract(): T
      requires Ok?
    {
      value
    }

    /** Rust's `map_err`: wraps the error, keeps the value. */
    function MapError<F>(wrap: E -> F): Result<T, F> {
      match this
      case Ok(v) => Ok(v)
      case Err(e) => Err(wrap(e))
    }
  }
}

=== FILE: rust.dfy ===
/** The `type = "rust"` build: normalising the configuration into a `RustBuild`,
    choosing the package and binary target from `cargo metadata`, the `cargo
    build` invocation, and where the produced binary is expected and copied. */
module Rust {

  import opened Results
  import opened Text
  import opened Paths
  import opened Process
  import Search

  /** Target triple a `RustBuild` starts from. */
  const DefaultTarget := "x86_64-unknown-linux-musl"
  const ManifestName := "Cargo.toml"
  /** Name the binary is given in the output directory. */
  const OutputName := "bootstrap"

  datatype BuildProfile = Release | Debug

  /** The `[build]` table of a `type = "rust"` configuration, as deserialised. */
  datatype RustBuildConfig = RustBuildConfig(
    target: Option<string>,
    profile: string,
    packageName: Option<string>,
    binaryName: Option<string>)

  /** The normalised build settings. */
  datatype RustBuild = RustBuild(
    target: Option<string>,
    profile: BuildProfile,
    packageName: Option<string>,
    binaryName: Option<string>)

  /** `default_profile`: the profile string of a configuration that names none. */
  function DefaultProfile(): string {
    "release"
  }

  /** The profile named by a configuration string, compared after lowercasing.
      Unknown names fall back to Release. */
  function ParseProfile(s: string): (p: BuildProfile)
    ensures p == Debug <==> EqualsIgnoringCase(s, "debug")
  {
    LowerMatchesIgnoringCase(s, "debug");
    var lower := Lower(s);
    if lower == "debug" then Debug
    else if lower == "release" then Release
    else Release
  }

  /** Profile names: the default string means Release, case does not matter,
      and anything unrecognised means Release. */
  lemma ProfileNames()
    ensures ParseProfile(DefaultProfile()) == Release
    ensures ParseProfile("debug") == Debug && ParseProfile("DeBuG") == Debug
    ensures ParseProfile("RELEASE") == Release
    ensures ParseProfile("dev") == Release && ParseProfile("") == Release
  {
    assert LowerChar('r') != LowerChar('d');
    assert LowerChar('D') == 'd' && LowerChar('B') == 'b' && LowerChar('G') == 'g';
  }

  /** `RustBuild::default()` / `RustBuild::new()`. */
  function New(): RustBuild {
    RustBuild(Some(DefaultTarget), Release, None, None)
  }

  /** Builder setter `target`. */
  function WithTarget(b: RustBuild, target: string): (r: RustBuild)
    ensures r.target == Some(target)
    ensures r.profile == b.profile && r.packageName == b.packageName && r.binaryName == b.binaryName
  {
    b.(target := Some(target))
  }

  /** Builder setter `profile`. */
  function WithProfile(b: RustBuild, profile: BuildProfile): (r: RustBuild)
    ensures r.profile == profile
    ensures r.target == b.target && r.packageName == b.packageName && r.binaryName == b.binaryName
  {
    b.(profile := profile)
  }

  /** Builder setter `package_name`. */
  function WithPackageName(b: RustBuild, name: string): (r: RustBuild)
    ensures r.packageName == Some(name)
    ensures r.target == b.target && r.profile == b.profile && r.binaryName == b.binaryName
  {
    b.(packageName := Some(name))
  }

  /** Builder setter `binary_name`. */
  function WithBinaryName(b: RustBuild, name: string): (r: RustBuild)
    ensures r.binaryName == Some(name)
    ensures r.target == b.target && r.profile == b.profile && r.packageName == b.packageName
  {
    b.(binaryName := Some(name))
  }

  /** `From<RustBuildConfig> for RustBuild`: start from `new()` with the parsed profile,
      then apply a setter for every field the configuration gives. */
  function FromConfig(c: RustBuildConfig): (r: RustBuild)
    ensures r.profile == ParseProfile(c.profile)
    ensures r.target == if c.target.Some? then c.target else Some(DefaultTarget)
    ensures r.packageName == c.packageName && r.binaryName == c.binaryName
  {
    var b0 := WithProfile(New(), ParseProfile(c.profile));
    var b1 := if c.target.Some? then WithTarget(b0, c.target.value) else b0;
    var b2 := if c.packageName.Some? then WithPackageName(b1, c.packageName.value) else b1;
    if c.binaryName.Some? then WithBinaryName(b2, c.binaryName.value) else b2
  }

  /** A configuration that names no target still builds for the musl triple, and
      one naming nothing at all gives the default build. */
  lemma ConfigDefaults(c: RustBuildConfig)
    ensures c.target.None? ==> FromConfig(c).target == Some(DefaultTarget)
    ensures c == RustBuildConfig(None, DefaultProfile(), None, None) ==> FromConfig(c) == New()
  {
    ProfileNames();
  }

  datatype Target = Target(name: string, kind: seq<string>)

  datatype Package = Package(name: string, manifestPath: Path, targets: seq<Target>)

  /** The part of `cargo metadata --no-deps` the build reads. */
  datatype CargoMetadata = CargoMetadata(packages: seq<Package>)

  datatype Error =
    | ManifestMissing(manifest: Path)
    | CargoUnavailable
    | MetadataNotRun(dir: Path)
    | MetadataFailed(stderr: string)
    | MetadataMalformed
    | PackageNotFound(name: string)
    | NoPackages
    | BinaryNotFound(name: string, package: string)
    | NoBinaryTargets(package: string, available: seq<string>)
    | CargoBuildNotRun(dir: Path)
    | CargoBuildFailed(code: string)
    | BinaryMissing(binary: Path)
    | OutputDirFailed(dir: Path)
    | CopyFailed(from: Path, to: Path)

  /** The package whose manifest is the project's own `Cargo.toml`. */
  predicate AtRoot(p: Package, project: Path) {
    p.manifestPath == Child(project, ManifestName)
  }

  predicate IsBinary(t: Target) {
    "bin" in t.kind
  }

  /** `find_package`: a configured name must match exactly (no fallback); otherwise
      the first package at the project root, otherwise the first package. */
  function FindPackage(b: RustBuild, meta: CargoMetadata, project: Path): (r: Result<Package, Error>)
    ensures b.packageName.Some? ==> match r
      case Ok(p) => exists i :: 0 <= i < |meta.packages| && meta.packages[i] == p
                                && p.name == b.packageName.value
                                && forall j :: 0 <= j < i ==> meta.packages[j].name != b.packageName.value
      case Err(e) => e == PackageNotFound(b.packageName.value)
                     && forall j :: 0 <= j < |meta.packages| ==> meta.packages[j].name != b.packageName.value
    ensures b.packageName.None? ==> match r
      case Ok(p) =>
        || (exists i :: 0 <= i < |meta.packages| && meta.packages[i] == p && AtRoot(p, project)
                        && forall j :: 0 <= j < i ==> !AtRoot(meta.packages[j], project))
        || ((forall j :: 0 <= j < |meta.packages| ==> !AtRoot(meta.packages[j], project))
            && |meta.packages| > 0 && p == meta.packages[0])
      case Err(e) => e == NoPackages && |meta.packages| == 0
  {
    if b.packageName.Some? then
      var name := b.packageName.value;
      match Search.Find(meta.packages, (p: Package) => p.name == name)
      case Some(p) => Ok(p)
      case None => Err(PackageNotFound(name))
    else
      match Search.Find(meta.packages, (p: Package) => AtRoot(p, project))
      case Some(p) => Ok(p)
      case None =>
        if |meta.packages| > 0 then Ok(meta.packages[0]) else Err(NoPackages)
  }

  /** `find_binary_target`: only targets whose kinds include "bin" qualify; a
      configured name picks the first qualifying target of that name, otherwise
      the first qualifying target is taken. */
  function FindBinaryTarget(b: RustBuild, pkg: Package): (r: Result<Target, Error>)
    ensures r.Ok? ==> IsBinary(r.value)
                      && exists i :: 0 <= i < |pkg.targets| && pkg.targets[i] == r.value
    ensures b.binaryName.Some? ==> match r
      case Ok(t) => t.name == b.binaryName.value
                    && exists i :: 0 <= i < |pkg.targets| && pkg.targets[i] == t
                                   && forall j :: 0 <= j < i ==> !(IsBinary(pkg.targets[j]) && pkg.targets[j].name == t.name)
      case Err(e) => e == BinaryNotFound(b.binaryName.value, pkg.name)
                     && forall j :: 0 <= j < |pkg.targets| ==>
                          !(IsBinary(pkg.targets[j]) && pkg.targets[j].name == b.binaryName.value)
    ensures b.binaryName.None? ==> match r
      case Ok(t) => exists i :: 0 <= i < |pkg.targets| && pkg.targets[i] == t
                                && forall j :: 0 <= j < i ==> !IsBinary(pkg.targets[j])
      case Err(e) => e == NoBinaryTargets(pkg.name, TargetNames(pkg.targets))
                     && forall j :: 0 <= j < |pkg.targets| ==> !IsBinary(pkg.targets[j])
  {
    if b.binaryName.Some? then
      var name := b.binaryName.value;
      match Search.Find(pkg.targets, (t: Target) => IsBinary(t) && t.name == name)
      case Some(t) => Ok(t)
      case None => Err(BinaryNotFound(name, pkg.name))
    else
      match Search.Find(pkg.targets, (t: Target) => IsBinary(t))
      case Some(t) => Ok(t)
      case None => Err(NoBinaryTargets(pkg.name, TargetNames(pkg.targets)))
  }

  /** The names of all targets, listed in the "no binary targets" error. */
  function TargetNames(targets: seq<Target>): (names: seq<string>)
    ensures |names| == |targets|
    ensures forall i :: 0 <= i < |targets| ==> names[i] == targets[i].name
  {
    seq(|targets|, i requires 0 <= i < |targets| => targets[i].name)
  }

  /** The tie-break with packages [A, B] where A's manifest is the project's:
      nothing configured selects A, a configured "B" selects B. */
  lemma TieBreakExample(project: Path, targets: seq<Target>)
    ensures var a := Package("A", Child(project, ManifestName), targets);
            var bPkg := Package("B", Child(Path(true, ["elsewhere"]), ManifestName), targets);
            var meta := CargoMetadata([a, bPkg]);
            && FindPackage(New(), meta, project) == Ok(a)
            && FindPackage(WithPackageName(New(), "B"), meta, project) == Ok(bPkg)
  {
    var a := Package("A", Child(project, ManifestName), targets);
    var bPkg := Package("B", Child(Path(true, ["elsewhere"]), ManifestName), targets);
    var meta := CargoMetadata([a, bPkg]);
    assert AtRoot(a, project);
    assert Search.Find(meta.packages, (p: Package) => AtRoot(p, project)) == Some(a);
    var named := (p: Package) => p.name == "B";
    assert !named(meta.packages[0]) && named(meta.packages[1]);
    assert Search.Find(meta.packages, named) == Some(bPkg);
  }

  /** Reads the profile and target back from a `cargo build` argument list, the
      way cargo's option parser treats `--release` and `--target <triple>`. */
  function ParseCargoBuild(args: seq<string>): Option<(BuildProfile, Option<string>)> {
    if |args| > 0 && args[0] == "build" then Some(ReadBuildFlags(args[1..], Debug, None)) else None
  }

  function ReadBuildFlags(args: seq<string>, profile: BuildProfile, target: Option<string>): (BuildProfile, Option<string>)
    decreases |args|
  {
    if |args| == 0 then (profile, target)
    else if args[0] == "--release" then ReadBuildFlags(args[1..], Release, target)
    else if args[0] == "--target" && |args| >= 2 then ReadBuildFlags(args[2..], profile, Some(args[1]))
    else ReadBuildFlags(args[1..], profile, target)
  }

  /** Arguments of `cargo build`: `--release` only for Release (Debug is cargo's
      default) and `--target <triple>` only when a target is set. */
  function CargoBuildArgs(b: RustBuild): (args: seq<string>)
    ensures 1 <= |args| <= 4 && args[0] == "build"
    ensures ParseCargoBuild(args) == Some((b.profile, b.target))
    ensures |args| == 1 + (if b.profile == Release then 1 else 0) + (if b.target.Some? then 2 else 0)
  {
    var profileFlag := if b.profile == Release then ["--release"] else [];
    var targetFlags := if b.target.Some? then ["--target", b.target.value] else [];
    var args := ["build"] + profileFlag + targetFlags;
    assert args[1..] == profileFlag + targetFlags;
    assert ReadBuildFlags(targetFlags, b.profile, None) == (b.profile, b.target) by {
      if b.target.Some? {
        assert targetFlags[2..] == [];
      }
    }
    assert ReadBuildFlags(profileFlag + targetFlags, Debug, None) == (b.profile, b.target) by {
      if b.profile == Release {
        assert (profileFlag + targetFlags)[1..] == targetFlags;
      } else {
        assert profileFlag + targetFlags == targetFlags;
      }
    }
    args
  }

  /** Output directory cargo uses for a profile. */
  function ProfileDir(p: BuildProfile): string {
    match p
    case Release => "release"
    case Debug => "debug"
  }

  /** `get_binary_path`: `project/target/[triple/](release|debug)/name`. */
  function BinaryPath(b: RustBuild, project: Path, name: string): (r: Path)
    ensures r.absolute == project.absolute
    ensures |r.parts| == |project.parts| + (if b.target.Some? then 4 else 3)
    ensures r.parts[..|project.parts|] == project.parts
    ensures r.parts[|project.parts|] == "target"
    ensures b.target.Some? ==> r.parts[|project.parts| + 1] == b.target.value
    ensures r.parts[|r.parts| - 2] == ProfileDir(b.profile)
    ensures r.parts[|r.parts| - 1] == name
  {
    var dir := Child(project, "target");
    var dir := if b.target.Some? then Child(dir, b.target.value) else dir;
    Child(Child(dir, ProfileDir(b.profile)), name)
  }

  /** Builds that differ in target, profile or binary name never expect their
      binary at the same path. */
  lemma BinaryPathInjective(b1: RustBuild, b2: RustBuild, project: Path, n1: string, n2: string)
    requires BinaryPath(b1, project, n1) == BinaryPath(b2, project, n2)
    ensures n1 == n2 && b1.profile == b2.profile && b1.target == b2.target
  {
    var p := BinaryPath(b1, project, n1);
    var k := |project.parts|;
    assert b1.target.Some? <==> b2.target.Some?;
    assert ProfileDir(b1.profile) == ProfileDir(b2.profile);
    if b1.target.Some? {
      assert b1.target.value == p.parts[k + 1] == b2.target.value;
    }
  }

  /** `copy_binary`'s destination: always `bootstrap` in the output directory,
      whatever the binary's own name. */
  function OutputPath(temp: Path): (r: Path)
    ensures Parent(r) == Some(temp) && FileName(r) == Some(OutputName)
  {
    ChildInverse(temp, OutputName);
    Child(temp, OutputName)
  }

  function VersionCommand(): Command {
    Command("cargo", ["--version"], None, map[])
  }

  function MetadataCommand(project: Path): Command {
    Command("cargo", ["metadata", "--no-deps", "--format-version=1"], Some(project), map[])
  }

  function CargoBuildCommand(b: RustBuild, project: Path): Command {
    Command("cargo", CargoBuildArgs(b), Some(project), map[])
  }

  /** What `cargo metadata` did: not started, or finished with a status, its
      standard error and the parsed document (None when the JSON did not parse). */
  datatype MetadataReply =
    | MetadataNotSpawned
    | MetadataRan(status: ExitStatus, stderr: string, parsed: Option<CargoMetadata>)

  /** What `cargo build` did: not started (or not awaited), or finished with a status. */
  datatype CargoBuildReply = BuildNotSpawned | BuildRan(status: ExitStatus)

  /** What creating the output directory and copying the binary did. */
  datatype CopyReply = MkdirFailed | CopyRefused | Copied

  /** The outcomes of everything the build asks of cargo and the file system. */
  datatype CargoReplies = CargoReplies(
    versionSpawned: bool,
    metadata: MetadataReply,
    build: CargoBuildReply,
    copy: CopyReply)

  /** `get_metadata`: the parsed document of a successful `cargo metadata`. */
  function LoadMetadata(project: Path, reply: MetadataReply): (r: Result<CargoMetadata, Error>)
    ensures r.Ok? <==> reply.MetadataRan? && Succeeded(reply.status) && reply.parsed.Some?
    ensures r.Ok? ==> r.value == reply.parsed.value
    ensures reply.MetadataNotSpawned? ==> r == Err(MetadataNotRun(project))
    ensures reply.MetadataRan? && !Succeeded(reply.status) ==> r == Err(MetadataFailed(reply.stderr))
    ensures reply.MetadataRan? && Succeeded(reply.status) && reply.parsed.None? ==> r == Err(MetadataMalformed)
  {
    match reply
    case MetadataNotSpawned => Err(MetadataNotRun(project))
    case MetadataRan(status, stderr, parsed) =>
      if !Succeeded(status) then Err(MetadataFailed(stderr))
      else if parsed.None? then Err(MetadataMalformed)
      else Ok(parsed.value)
  }

  /** The package and binary target the build selects from the metadata. */
  function Resolve(b: RustBuild, meta: CargoMetadata, project: Path): Result<(Package, Target), Error> {
    var pkg :- FindPackage(b, meta, project);
    var bin :- FindBinaryTarget(b, pkg);
    Ok((pkg, bin))
  }

  /** Where the binary was found and where it was copied. */
  datatype Staged = Staged(binary: Path, output: Path)

  /** The commands a build spawned, in order, and how it ended. */
  datatype Report = Report(commands: seq<Command>, result: Result<Staged, Error>)

  /** `RustBuild::build`: check the manifest and cargo, read the metadata, pick the
      package and binary, run `cargo build`, check the binary exists, copy it. */
  function Build(b: RustBuild, project: Path, temp: Path, host: Host, replies: CargoReplies): (r: Report)
    ensures !Exists(host, Child(project, ManifestName)) ==>
              r == Report([], Err(ManifestMissing(Child(project, ManifestName))))
    ensures CargoBuildCommand(b, project) in r.commands ==>
              && r.commands == [VersionCommand(), MetadataCommand(project), CargoBuildCommand(b, project)]
              && LoadMetadata(project, replies.metadata).Ok?
              && Resolve(b, LoadMetadata(project, replies.metadata).value, project).Ok?
    ensures r.result.Ok? <==>
              && Exists(host, Child(project, ManifestName))
              && replies.versionSpawned
              && LoadMetadata(project, replies.metadata).Ok?
              && Resolve(b, LoadMetadata(project, replies.metadata).value, project).Ok?
              && Compile(b, project, temp, host, replies,
                         Resolve(b, LoadMetadata(project, replies.metadata).value, project).value.1.name).Ok?
    ensures Exists(host, Child(project, ManifestName)) && !replies.versionSpawned ==>
              r == Report([VersionCommand()], Err(CargoUnavailable))
    ensures Exists(host, Child(project, ManifestName)) && replies.versionSpawned
            && LoadMetadata(project, replies.metadata).Err? ==>
              r.result == Err(LoadMetadata(project, replies.metadata).error)
    ensures Exists(host, Child(project, ManifestName)) && replies.versionSpawned
            && LoadMetadata(project, replies.metadata).Ok?
            && Resolve(b, LoadMetadata(project, replies.metadata).value, project).Err? ==>
              r.result == Err(Resolve(b, LoadMetadata(project, replies.metadata).value, project).error)
    ensures Exists(host, Child(project, ManifestName)) && replies.versionSpawned
            && LoadMetadata(project, replies.metadata).Ok?
            && Resolve(b, LoadMetadata(project, replies.metadata).value, project).Ok? ==>
              r.result == Compile(b, project, temp, host, replies,
                                  Resolve(b, LoadMetadata(project, replies.metadata).value, project).value.1.name)
    ensures r.result.Ok? ==>
              var (pkg, bin) := Resolve(b, LoadMetadata(project, replies.metadata).value, project).value;
              && CargoBuildCommand(b, project) in r.commands
              && r.result.value.binary == BinaryPath(b, project, bin.name)
              && r.result.value.output == OutputPath(temp)
  {
    var manifest := Child(project, ManifestName);
    if !Exists(host, manifest) then Report([], Err(ManifestMissing(manifest)))
    else if !replies.versionSpawned then Report([VersionCommand()], Err(CargoUnavailable))
    else
      var probes := [VersionCommand(), MetadataCommand(project)];
      match LoadMetadata(project, replies.metadata)
      case Err(e) => Report(probes, Err(e))
      case Ok(meta) =>
        match Resolve(b, meta, project)
        case Err(e) => Report(probes, Err(e))
        case Ok((_, bin)) =>
          var commands := probes + [CargoBuildCommand(b, project)];
          Report(commands, Compile(b, project, temp, host, replies, bin.name))
  }

  /** The steps after `cargo build` is spawned, for the selected binary name. */
  function Compile(b: RustBuild, project: Path, temp: Path, host: Host, replies: CargoReplies, name: string)
    : (r: Result<Staged, Error>)
    ensures r.Ok? <==> replies.build.BuildRan? && Succeeded(replies.build.status)
                       && Exists(host, BinaryPath(b, project, name)) && replies.copy.Copied?
    ensures r.Ok? ==> r.value == Staged(BinaryPath(b, project, name), OutputPath(temp))
    ensures replies.build.BuildNotSpawned? ==> r == Err(CargoBuildNotRun(project))
    ensures replies.build.BuildRan? && !Succeeded(replies.build.status) ==>
              r == Err(CargoBuildFailed(CodeText(replies.build.status)))
    ensures replies.build.BuildRan? && Succeeded(replies.build.status) ==>
              var binary := BinaryPath(b, project, name);
              && (!Exists(host, binary) ==> r == Err(BinaryMissing(binary)))
              && (Exists(host, binary) && replies.copy.MkdirFailed? ==> r == Err(OutputDirFailed(temp)))
              && (Exists(host, binary) && replies.copy.CopyRefused? ==> r == Err(CopyFailed(binary, OutputPath(temp))))
  {
    match replies.build
    case BuildNotSpawned => Err(CargoBuildNotRun(project))
    case BuildRan(status) =>
      if !Succeeded(status) then Err(CargoBuildFailed(CodeText(status)))
      else
        var binary := BinaryPath(b, project, name);
        var output := OutputPath(temp);
        if !Exists(host, binary) then Err(BinaryMissing(binary))
        else match replies.copy
          case MkdirFailed => Err(OutputDirFailed(temp))
          case CopyRefused => Err(CopyFailed(binary, output))
          case Copied => Ok(Staged(binary, output))
  }
}

=== FILE: search.dfy ===
/** Rust's `Iterator::find` over a sequence, returning the position found. */
module Search {

  import opened Results

  /** The index of the first element of `s` satisfying `p`, or None if none does. */
  function FindIndex<T>(s: seq<T>, p: T -> bool): (r: Option<nat>)
    ensures r.Some? ==> r.value < |s| && p(s[r.value])
                        && forall j :: 0 <= j < r.value ==> !p(s[j])
    ensures r.None? <==> forall j :: 0 <= j < |s| ==> !p(s[j])
    decreases |s|
  {
    if |s| == 0 then None
    else if p(s[0]) then Some(0)
    else match FindIndex(s[1..], p)
      case None => None
      case Some(i) => Some(i + 1)
  }

  /** `iter().find(p)`: the first element satisfying `p`. */
  function Find<T>(s: seq<T>, p: T -> bool): (r: Option<T>)
    ensures r.Some? <==> exists j :: 0 <= j < |s| && p(s[j])
    ensures r.Some? ==> exists i :: 0 <= i < |s| && s[i] == r.value && p(s[i])
                                    && forall j :: 0 <= j < i ==> !p(s[j])
  {
    match FindIndex(s, p)
    case None => None
    case Some(i) => Some(s[i])
  }
}

=== FILE: text.dfy ===
/** String operations of Rust's `str` that the commands rely on: `trim`,
    `contains`, `to_lowercase` (ASCII letters), `split_once`, and the decimal
    rendering of integers done by `to_string`. */
module Text {

  import opened Results

  /** Unicode's White_Space property, the set `str::trim` strips. */
  predicate IsWhitespace(c: char) {
    || ('\t' <= c <= '\r')
    || c == ' '
    || c == '\U{85}'
    || c == '\U{A0}'
    || c == '\U{1680}'
    || ('\U{2000}' <= c <= '\U{200A}')
    || c == '\U{2028}'
    || c == '\U{2029}'
    || c == '\U{202F}'
    || c == '\U{205F}'
    || c == '\U{3000}'
  }

  predicate IsBlank(s: string) {
    forall i :: 0 <= i < |s| ==> IsWhitespace(s[i])
  }

  /** `str::trim_start`: the longest suffix not starting with whitespace. */
  function TrimStart(s: string): (r: string)
    ensures |r| <= |s| && r == s[|s| - |r|..]
    ensures IsBlank(s[..|s| - |r|])
    ensures |r| > 0 ==> !IsWhitespace(r[0])
    decreases |s|
  {
    if |s| > 0 && IsWhitespace(s[0]) then TrimStart(s[1..]) else s
  }

  /** `str::trim_end`: the longest prefix not ending with whitespace. */
  function TrimEnd(s: string): (r: string)
    ensures |r| <= |s| && r == s[..|r|]
    ensures IsBlank(s[|r|..])
    ensures |r| > 0 ==> !IsWhitespace(r[|r| - 1])
    decreases |s|
  {
    if |s| > 0 && IsWhitespace(s[|s| - 1]) then TrimEnd(s[..|s| - 1]) else s
  }

  /** `str::trim`. */
  function Trim(s: string): string {
    TrimEnd(TrimStart(s))
  }

  /** `s.trim().is_empty()` holds exactly for the strings made only of whitespace. */
  lemma TrimEmptyIffBlank(s: string)
    ensures Trim(s) == [] <==> IsBlank(s)
  {
    var front := TrimStart(s);
    if Trim(s) == [] {
      assert IsBlank(front[0..]);
      assert s == s[..|s| - |front|] + front;
    }
  }

  /** `pattern` occurs in `s` starting at position `i`. */
  predicate OccursAt(s: string, pattern: string, i: int) {
    0 <= i && i + |pattern| <= |s| && s[i..i + |pattern|] == pattern
  }

  /** `str::contains` for a string pattern: some suffix of `s` starts with it. */
  predicate Contains(s: string, pattern: string)
    decreases |s|
  {
    (|pattern| <= |s| && s[..|pattern|] == pattern) || (|s| > 0 && Contains(s[1..], pattern))
  }

  /** `Contains` holds exactly when the pattern occurs at some position. */
  lemma ContainsIffOccurs(s: string, pattern: string)
    ensures Contains(s, pattern) <==> exists i :: OccursAt(s, pattern, i)
  {
    if Contains(s, pattern) {
      ContainsHasOccurrence(s, pattern);
    }
    if exists i :: OccursAt(s, pattern, i) {
      var i :| OccursAt(s, pattern, i);
      OccurrenceContains(s, pattern, i);
    }
  }

  lemma {:induction false} ContainsHasOccurrence(s: string, pattern: string)
    requires Contains(s, pattern)
    ensures exists i :: OccursAt(s, pattern, i)
    decreases |s|
  {
    if |pattern| <= |s| && s[..|pattern|] == pattern {
      assert OccursAt(s, pattern, 0);
    } else {
      ContainsHasOccurrence(s[1..], pattern);
      var i :| OccursAt(s[1..], pattern, i);
      assert OccursAt(s, pattern, i + 1);
    }
  }

  lemma {:induction false} OccurrenceContains(s: string, pattern: string, i: int)
    requires OccursAt(s, pattern, i)
    ensures Contains(s, pattern)
    decreases i
  {
    if i > 0 {
      assert OccursAt(s[1..], pattern, i - 1);
      OccurrenceContains(s[1..], pattern, i - 1);
    } else {
      assert s[..|pattern|] == pattern;
    }
  }

  function LowerChar(c: char): char {
    if 'A' <= c <= 'Z' then (c as int + 32) as char else c
  }

  /** `str::to_lowercase` restricted to ASCII letters. */
  function Lower(s: string): (r: string)
    ensures |r| == |s|
    ensures forall i :: 0 <= i < |s| ==> r[i] == LowerChar(s[i])
  {
    seq(|s|, i requires 0 <= i < |s| => LowerChar(s[i]))
  }

  /** Reference definition of ASCII case-insensitive equality, character by character. */
  predicate EqualsIgnoringCase(s: string, t: string) {
    |s| == |t| && forall i :: 0 <= i < |s| ==> LowerChar(s[i]) == LowerChar(t[i])
  }

  /** Comparing the lowercased string with an all-lowercase word is comparing ignoring case. */
  lemma LowerMatchesIgnoringCase(s: string, word: string)
    requires forall i :: 0 <= i < |word| ==> LowerChar(word[i]) == word[i]
    ensures Lower(s) == word <==> EqualsIgnoringCase(s, word)
  {
    if EqualsIgnoringCase(s, word) {
      assert forall i :: 0 <= i < |s| ==> Lower(s)[i] == word[i];
    }
  }

  /** `str::split_once(sep)`: the text before and after the first `sep`. */
  function SplitOnce(s: string, sep: char): (r: Option<(string, string)>)
    ensures r.None? <==> sep !in s
    ensures r.Some? ==> sep !in r.value.0 && r.value.0 + [sep] + r.value.1 == s
    decreases |s|
  {
    if |s| == 0 then None
    else if s[0] == sep then Some(([], s[1..]))
    else match SplitOnce(s[1..], sep)
      case None => None
      case Some((before, after)) => Some(([s[0]] + before, after))
  }

  /** The split point is unique: any split at an occurrence-free prefix is the one found. */
  lemma SplitOnceUnique(s: string, sep: char, before: string, after: string)
    requires sep !in before && before + [sep] + after == s
    ensures SplitOnce(s, sep) == Some((before, after))
  {
    var r := SplitOnce(s, sep);
    assert sep in s by { assert s[|before|] == sep; }
    var (b, a) := r.value;
    FirstSeparator(s, sep, b, a);
    FirstSeparator(s, sep, before, after);
    assert |b| == |before|;
    assert b == s[..|b|] == before;
    assert a == s[|b| + 1..] == after;
  }

  /** A split at an occurrence-free prefix puts `sep` exactly at the prefix's end. */
  lemma FirstSeparator(s: string, sep: char, before: string, after: string)
    requires sep !in before && before + [sep] + after == s
    ensures |before| < |s| && s[|before|] == sep
    ensures forall j :: 0 <= j < |before| ==> s[j] != sep
  {
    assert forall j :: 0 <= j < |before| ==> s[j] == before[j];
  }

  /** The ASCII digit for `d`. */
  function DigitChar(d: nat): (c: char)
    requires d < 10
    ensures IsDigit(c) && DigitValue(c) == d
  {
    (d + '0' as int) as char
  }

  predicate IsDigit(c: char) {
    '0' <= c <= '9'
  }

  function DigitValue(c: char): (d: nat)
    requires IsDigit(c)
    ensures d < 10
  {
    c as int - '0' as int
  }

  predicate AllDigits(s: string) {
    forall i :: 0 <= i < |s| ==> IsDigit(s[i])
  }

  /** `to_string` of a natural number: its decimal digits without leading zeros. */
  function NatToDecimal(n: nat): (r: string)
    ensures |r| > 0 && AllDigits(r)
    ensures |r| > 1 ==> r[0] != '0'
    decreases n
  {
    if n < 10 then [DigitChar(n)] else NatToDecimal(n / 10) + [DigitChar(n % 10)]
  }

  /** The number a string of decimal digits denotes. */
  function DecimalValue(s: string): nat
    requires AllDigits(s)
    decreases |s|
  {
    if |s| == 0 then 0 else DecimalValue(s[..|s| - 1]) * 10 + DigitValue(s[|s| - 1])
  }

  lemma {:induction false} DecimalRoundTrip(n: nat)
    ensures DecimalValue(NatToDecimal(n)) == n
    decreases n
  {
    if n >= 10 {
      var r := NatToDecimal(n);
      assert r[..|r| - 1] == NatToDecimal(n / 10);
      DecimalRoundTrip(n / 10);
    }
  }

  /** `i32::to_string`: a minus sign for negative numbers, then the digits. */
  function IntToDecimal(i: int): string {
    var magnitude: nat := if i < 0 then -i else i;
    (if i < 0 then "-" else "") + NatToDecimal(magnitude)
  }

  /** Reads back what `IntToDecimal` writes: an optional minus sign, then digits. */
  function ParseInt(s: string): Option<int> {
    if |s| > 1 && s[0] == '-' && AllDigits(s[1..]) then Some(0 - DecimalValue(s[1..]))
    else if |s| > 0 && AllDigits(s) then Some(DecimalValue(s))
    else None
  }

  /** A negative number reads back from its minus sign and digits. */
  lemma NegativeRoundTrip(i: int)
    requires i < 0
    ensures ParseInt(IntToDecimal(i)) == Some(i)
  {
    var digits := NatToDecimal(-i);
    calc {
      ParseInt(IntToDecimal(i));
      { assert IntToDecimal(i) == "-" + digits; }
      ParseInt("-" + digits);
      { SignedDigits(digits); }
      Some(0 - DecimalValue(digits));
      { DecimalRoundTrip(-i); }
      Some(i);
    }
  }

  /** A minus sign followed by digits reads back as the negated value of the digits. */
  lemma SignedDigits(digits: string)
    requires |digits| > 0 && AllDigits(digits)
    ensures ParseInt("-" + digits) == Some(0 - DecimalValue(digits))
  {
    var text := "-" + digits;
    calc {
      ParseInt(text);
      { assert text[1..] == digits; }
      Some(0 - DecimalValue(text[1..]));
      { assert text[1..] == digits; }
      Some(0 - DecimalValue(digits));
    }
  }

  /** A natural number reads back from its digits alone. */
  lemma NaturalRoundTrip(i: int)
    requires i >= 0
    ensures ParseInt(IntToDecimal(i)) == Some(i)
  {
    var digits := NatToDecimal(i);
    assert IntToDecimal(i) == digits;
    assert digits[0] != '-' by { assert IsDigit(digits[0]); }
    DecimalRoundTrip(i);
  }

  lemma IntDecimalRoundTrip(i: int)
    ensures ParseInt(IntToDecimal(i)) == Some(i)
  {
    if i < 0 {
      NegativeRoundTrip(i);
    } else {
      NaturalRoundTrip(i);
    }
  }
}

=== FILE: trigger.dfy ===
/** The `trigger` command: parse `key=value` metadata entries, build the
    execute request for an action, and print the worker's outcome. */
module Trigger {

  import opened Results
  import opened Text
  import opened Bytes
  import Utf8

  datatype Error = WorkerUnreachable | InvalidMetadataEntry(entry: string) | ExecuteFailed

  /** The key and value of an entry: the text before and after its first '='. */
  function Entry(e: string): (kv: (string, string))
    requires '=' in e
    ensures '=' !in kv.0 && kv.0 + "=" + kv.1 == e
  {
    SplitOnce(e, '=').value
  }

  /** Each entry splits at its first '=' only: "a=b=c" has key "a" and value "b=c",
      and "=v" has the empty key. */
  lemma EntryExamples()
    ensures Entry("a=b=c") == ("a", "b=c")
    ensures Entry("=v") == ("", "v")
  {
    SplitOnceUnique("a=b=c", '=', "a", "b=c");
    SplitOnceUnique("=v", '=', "", "v");
  }

  /** Every entry has a '='. */
  predicate AllSplit(entries: seq<string>) {
    forall i :: 0 <= i < |entries| ==> '=' in entries[i]
  }

  /** The metadata map: entries are inserted in order, so a later duplicate key wins;
      the first entry without '=' fails the whole parse and is named in the error. */
  function ParseMetadata(entries: seq<string>): (r: Result<map<string, string>, Error>)
    ensures r.Ok? <==> AllSplit(entries)
    ensures r.Err? ==> exists i :: && 0 <= i < |entries| && '=' !in entries[i]
                                   && r.error == InvalidMetadataEntry(entries[i])
                                   && AllSplit(entries[..i])
    decreases |entries|
  {
    if |entries| == 0 then Ok(map[])
    else
      var init := entries[..|entries| - 1];
      var last := entries[|entries| - 1];
      assert forall i :: 0 <= i < |init| ==> init[i] == entries[i];
      match ParseMetadata(init)
      case Err(e) =>
        assert forall i :: 0 <= i < |init| ==> init[..i] == entries[..i];
        Err(e)
      case Ok(m) =>
        match SplitOnce(last, '=')
        case None => assert init == entries[..|entries| - 1]; Err(InvalidMetadataEntry(last))
        case Some((k, v)) => Ok(m[k := v])
  }

  /** Entry `i` has key `k` and no later entry has that key. */
  predicate IsLastFor(entries: seq<string>, i: int, k: string)
    requires AllSplit(entries)
  {
    && 0 <= i < |entries|
    && Entry(entries[i]).0 == k
    && forall j :: i < j < |entries| ==> Entry(entries[j]).0 != k
  }

  /** Adding an entry with another key keeps an entry the last one for its key. */
  lemma LastForExtends(entries: seq<string>, i: int, key: string)
    requires |entries| > 0 && AllSplit(entries)
    requires AllSplit(entries[..|entries| - 1]) && IsLastFor(entries[..|entries| - 1], i, key)
    requires Entry(entries[|entries| - 1]).0 != key
    ensures IsLastFor(entries, i, key)
  {
    var init := entries[..|entries| - 1];
    assert forall j :: i < j < |init| ==> init[j] == entries[j];
  }

  /** The final entry is the last one for its own key. */
  lemma LastEntryIsLast(entries: seq<string>)
    requires |entries| > 0 && AllSplit(entries)
    ensures IsLastFor(entries, |entries| - 1, Entry(entries[|entries| - 1]).0)
  {
  }

  /** One step of the parse: the last entry is put into the map of the others. */
  lemma ParseStep(entries: seq<string>)
    requires |entries| > 0 && AllSplit(entries)
    ensures AllSplit(entries[..|entries| - 1])
    ensures ParseMetadata(entries).value
         == ParseMetadata(entries[..|entries| - 1]).value[Entry(entries[|entries| - 1]).0 := Entry(entries[|entries| - 1]).1]
  {
    var init := entries[..|entries| - 1];
    assert forall i :: 0 <= i < |init| ==> init[i] == entries[i];
  }

  /** The parsed map holds exactly the entries' keys, each with the value of the
      last entry that has it. */
  lemma {:induction false} MetadataLastWins(entries: seq<string>)
    requires AllSplit(entries)
    ensures var m := ParseMetadata(entries).value;
            && (forall i :: 0 <= i < |entries| ==> Entry(entries[i]).0 in m)
            && (forall k :: k in m ==> exists i :: IsLastFor(entries, i, k) && m[k] == Entry(entries[i]).1)
  {
    MetadataKeys(entries);
    MetadataValues(entries);
  }

  lemma {:induction false} MetadataKeys(entries: seq<string>)
    requires AllSplit(entries)
    ensures forall i :: 0 <= i < |entries| ==> Entry(entries[i]).0 in ParseMetadata(entries).value
    decreases |entries|
  {
    if |entries| > 0 {
      var init := entries[..|entries| - 1];
      var last := entries[|entries| - 1];
      ParseStep(entries);
      MetadataKeys(init);
      var m := ParseMetadata(init).value;
      var grown := m[Entry(last).0 := Entry(last).1];
      assert ParseMetadata(entries).value == grown;
      forall i | 0 <= i < |entries| ensures Entry(entries[i]).0 in grown {
        if i < |init| {
          assert init[i] == entries[i];
          assert Entry(init[i]).0 in m;
        } else {
          assert entries[i] == last;
        }
      }
    }
  }

  lemma {:induction false} MetadataValues(entries: seq<string>)
    requires AllSplit(entries)
    ensures var m := ParseMetadata(entries).value;
            forall k :: k in m ==> exists i :: IsLastFor(entries, i, k) && m[k] == Entry(entries[i]).1
    decreases |entries|
  {
    if |entries| > 0 {
      var init := entries[..|entries| - 1];
      var last := entries[|entries| - 1];
      ParseStep(entries);
      MetadataValues(init);
      var m := ParseMetadata(init).value;
      var k, v := Entry(last).0, Entry(last).1;
      var grown := m[k := v];
      assert ParseMetadata(entries).value == grown;
      LastEntryIsLast(entries);
      forall key | key in grown && key != k
        ensures exists i :: IsLastFor(entries, i, key) && grown[key] == Entry(entries[i]).1
      {
        var i :| IsLastFor(init, i, key) && m[key] == Entry(init[i]).1;
        LastForExtends(entries, i, key);
      }
    }
  }

  /** No entries, no metadata; and of two entries with one key, the later one's value is kept. */
  lemma MetadataExamples(k: string, v1: string, v2: string)
    requires '=' !in k
    ensures ParseMetadata([]) == Ok(map[])
    ensures ParseMetadata([k + "=" + v1, k + "=" + v2]) == Ok(map[k := v2])
  {
    var e1, e2 := k + "=" + v1, k + "=" + v2;
    SplitOnceUnique(e1, '=', k, v1);
    SplitOnceUnique(e2, '=', k, v2);
    assert [e1, e2][..1] == [e1];
    assert [e1][..0] == [];
    assert ParseMetadata([e1]) == Ok(map[k := v1]);
    assert map[k := v1][k := v2] == map[k := v2];
  }

  /** The request sent to the worker. */
  datatype ExecuteRequest = ExecuteRequest(action: string, body: seq<byte>, metadata: map<string, string>)

  /** The request for an action: `action` is the key, `body` the UTF-8 bytes of
      the body text, `metadata` the parsed entries. */
  function MakeRequest(key: string, body: string, metadata: seq<string>): (r: Result<ExecuteRequest, Error>)
    ensures r.Ok? <==> ParseMetadata(metadata).Ok?
    ensures r.Err? ==> r.error == ParseMetadata(metadata).error
    ensures r.Ok? ==> && r.value.action == key
                      && r.value.body == Utf8.Encode(body)
                      && Utf8.DecodeLossy(r.value.body) == body
                      && r.value.metadata == ParseMetadata(metadata).value
  {
    var parsed :- ParseMetadata(metadata);
    Utf8.DecodeEncode(body);
    Ok(ExecuteRequest(key, Utf8.Encode(body), parsed))
  }

  /** A problem description; `extensions` lists the entries of its map in the
      order the map yields them, which is unspecified. */
  datatype Problem = Problem(kind: string, detail: string, instance: string, extensions: seq<(string, string)>)

  datatype Outcome = Success(body: seq<byte>) | Failure(problem: Problem)

  /** The line printed for one extension entry. */
  function ExtensionLine(entry: (string, string)): string {
    entry.0 + " " + entry.1
  }

  /** The lines printed for an outcome: the body decoded lossily for a success;
      type, detail and instance, then one line per extension, for a problem. */
  function OutcomeLines(o: Outcome): (lines: seq<string>)
    ensures o.Success? ==> lines == [Utf8.DecodeLossy(o.body)]
    ensures o.Failure? ==> && |lines| == 3 + |o.problem.extensions|
                           && lines[..3] == [o.problem.kind, o.problem.detail, o.problem.instance]
                           && forall i :: 0 <= i < |o.problem.extensions| ==>
                                lines[3 + i] == ExtensionLine(o.problem.extensions[i])
  {
    match o
    case Success(body) => [Utf8.DecodeLossy(body)]
    case Failure(p) =>
      [p.kind, p.detail, p.instance] + seq(|p.extensions|, i requires 0 <= i < |p.extensions| => ExtensionLine(p.extensions[i]))
  }

  /** A worker that echoes the body back prints exactly the body text. */
  lemma EchoedBodyPrinted(body: string)
    ensures OutcomeLines(Success(Utf8.Encode(body))) == [body]
  {
    Utf8.DecodeEncode(body);
  }

  /** How the execute call went: it failed, or it returned an outcome. */
  datatype ExecuteReply = CallFailed | Replied(outcome: Outcome)

  /** What a successful trigger sent and printed. */
  datatype Exchange = Exchange(request: ExecuteRequest, lines: seq<string>)

  /** `trigger::run`: connect, parse the metadata, send the request, print the outcome. */
  function Run(key: string, body: string, metadata: seq<string>, connected: bool, reply: ExecuteReply)
    : (r: Result<Exchange, Error>)
    ensures !connected ==> r == Err(WorkerUnreachable)
    ensures connected && ParseMetadata(metadata).Err? ==> r == Err(ParseMetadata(metadata).error)
    ensures r.Ok? <==> connected && ParseMetadata(metadata).Ok? && reply.Replied?
    ensures connected && ParseMetadata(metadata).Ok? && reply.CallFailed? ==> r == Err(ExecuteFailed)
    ensures r.Ok? ==> && r.value.request == MakeRequest(key, body, metadata).value
                      && r.value.lines == OutcomeLines(reply.outcome)
  {
    if !connected then Err(WorkerUnreachable)
    else
      var request :- MakeRequest(key, body, metadata);
      match reply
      case CallFailed => Err(ExecuteFailed)
      case Replied(outcome) => Ok(Exchange(request, OutcomeLines(outcome)))
  }
}

=== FILE: utf8.dfy ===
/** UTF-8, as Rust uses it: `String::into::<Vec<u8>>` yields the UTF-8 bytes of
    a string, and `String::from_utf8_lossy` decodes bytes, replacing each
    maximal ill-formed subsequence by U+FFFD. */
module Utf8 {

  import opened Bytes

  const Replacement: char := '\U{FFFD}'

  predicate IsContinuation(b: byte) {
    0x80 <= b < 0xC0
  }

  /** The UTF-8 encoding of one Unicode scalar value. */
  function EncodeChar(c: char): (r: seq<byte>)
    ensures 1 <= |r| <= 4
    ensures |r| == 1 <==> c as int < 0x80
    ensures forall i :: 1 <= i < |r| ==> IsContinuation(r[i])
  {
    var n := c as int;
    if n < 0x80 then [n]
    else if n < 0x800 then [0xC0 + n / 0x40, 0x80 + n % 0x40]
    else if n < 0x1_0000 then [0xE0 + n / 0x1000, 0x80 + (n / 0x40) % 0x40, 0x80 + n % 0x40]
    else [0xF0 + n / 0x4_0000, 0x80 + (n / 0x1000) % 0x40, 0x80 + (n / 0x40) % 0x40, 0x80 + n % 0x40]
  }

  /** The UTF-8 encoding of a string: its characters' encodings in order. */
  function Encode(s: string): (r: seq<byte>)
    ensures |s| <= |r| <= 4 * |s|
    decreases |s|
  {
    if |s| == 0 then [] else EncodeChar(s[0]) + Encode(s[1..])
  }

  /** The first character `from_utf8_lossy` produces from `b`, and how many bytes it
      consumes: a well-formed sequence decodes to its scalar value; otherwise the
      longest prefix that could still start a well-formed sequence (at least one
      byte) becomes one U+FFFD. */
  function DecodeStep(b: seq<byte>): (r: (char, nat))
    requires |b| > 0
    ensures 1 <= r.1 <= |b| && r.1 <= 4
  {
    var b0 := b[0] as int;
    if b0 < 0x80 then (b0 as char, 1)
    else if 0xC2 <= b0 <= 0xDF then
      if |b| < 2 || !IsContinuation(b[1]) then (Replacement, 1)
      else (((b0 - 0xC0) * 0x40 + (b[1] as int - 0x80)) as char, 2)
    else if 0xE0 <= b0 <= 0xEF then
      var lo := if b0 == 0xE0 then 0xA0 else 0x80;
      var hi := if b0 == 0xED then 0x9F else 0xBF;
      if |b| < 2 || !(lo <= b[1] <= hi) then (Replacement, 1)
      else if |b| < 3 || !IsContinuation(b[2]) then (Replacement, 2)
      else (((b0 - 0xE0) * 0x1000 + (b[1] as int - 0x80) * 0x40 + (b[2] as int - 0x80)) as char, 3)
    else if 0xF0 <= b0 <= 0xF4 then
      var lo := if b0 == 0xF0 then 0x90 else 0x80;
      var hi := if b0 == 0xF4 then 0x8F else 0xBF;
      if |b| < 2 || !(lo <= b[1] <= hi) then (Replacement, 1)
      else if |b| < 3 || !IsContinuation(b[2]) then (Replacement, 2)
      else if |b| < 4 || !IsContinuation(b[3]) then (Replacement, 3)
      else (((b0 - 0xF0) * 0x4_0000 + (b[1] as int - 0x80) * 0x1000 + (b[2] as int - 0x80) * 0x40 + (b[3] as int - 0x80)) as char, 4)
    else (Replacement, 1)
  }

  /** `String::from_utf8_lossy`. */
  function DecodeLossy(b: seq<byte>): (s: string)
    ensures |s| <= |b|
    decreases |b|
  {
    if |b| == 0 then []
    else
      var (c, used) := DecodeStep(b);
      [c] + DecodeLossy(b[used..])
  }

  /** Decoding reads back exactly the character at the head of an encoding. */
  lemma DecodeEncodedChar(c: char, rest: seq<byte>)
    ensures DecodeStep(EncodeChar(c) + rest) == (c, |EncodeChar(c)|)
  {
    var n := c as int;
    var e := EncodeChar(c);
    var b := e + rest;
    if n < 0x80 {
    } else if n < 0x800 {
      assert b[0] == 0xC0 + n / 0x40 && b[1] == 0x80 + n % 0x40;
      assert (n / 0x40) * 0x40 + n % 0x40 == n;
    } else if n < 0x1_0000 {
      assert b[0] == 0xE0 + n / 0x1000 && b[1] == 0x80 + (n / 0x40) % 0x40 && b[2] == 0x80 + n % 0x40;
      ThreeByteValue(n);
    } else {
      assert b[0] == 0xF0 + n / 0x4_0000 && b[1] == 0x80 + (n / 0x1000) % 0x40;
      assert b[2] == 0x80 + (n / 0x40) % 0x40 && b[3] == 0x80 + n % 0x40;
      FourByteValue(n);
    }
  }

  lemma ThreeByteValue(n: int)
    requires 0x800 <= n < 0x1_0000 && !(0xD800 <= n < 0xE000)
    ensures (n / 0x1000) * 0x1000 + ((n / 0x40) % 0x40) * 0x40 + n % 0x40 == n
    ensures n / 0x1000 == 0 ==> (n / 0x40) % 0x40 >= 0x20
    ensures n / 0x1000 == 0xD ==> (n / 0x40) % 0x40 < 0x20
  {
  }

  lemma FourByteValue(n: int)
    requires 0x1_0000 <= n < 0x11_0000
    ensures (n / 0x4_0000) * 0x4_0000 + ((n / 0x1000) % 0x40) * 0x1000 + ((n / 0x40) % 0x40) * 0x40 + n % 0x40 == n
    ensures n / 0x4_0000 <= 4
    ensures n / 0x4_0000 == 0 ==> (n / 0x1000) % 0x40 >= 0x10
    ensures n / 0x4_0000 == 4 ==> (n / 0x1000) % 0x40 < 0x10
  {
  }

  /** Encoding is character by character: the first character's bytes come first. */
  lemma EncodeAppend(c: char, s: string)
    ensures Encode([c] + s) == EncodeChar(c) + Encode(s)
  {
    assert ([c] + s)[1..] == s;
  }

  /** Decoding the UTF-8 encoding of a string gives the string back: lossy
      decoding loses nothing on well-formed input. */
  lemma {:induction false} DecodeEncode(s: string)
    ensures DecodeLossy(Encode(s)) == s
    decreases |s|
  {
    if |s| > 0 {
      var e := EncodeChar(s[0]);
      var b := Encode(s);
      assert [s[0]] + s[1..] == s;
      EncodeAppend(s[0], s[1..]);
      DecodeEncodedChar(s[0], Encode(s[1..]));
      assert b[|e|..] == Encode(s[1..]);
      DecodeEncode(s[1..]);
      assert [s[0]] + s[1..] == s;
    }
  }
}
